=== FILE: README.md ===
# nlp-alchemist in Dafny

A model of the word-embedding "alchemy" Telegram bot, with proofs about it.
The bot answers `/similar`, `/analogy`, `/mix` and `/between` by searching a
FAISS index of word vectors. The model covers three layers:

- **`AsyncWordDatabase`** (`database.dfy`). Loading is a state transition of
  `Db`: the index and the stripped word list are read once, and their counts
  are compared. It also models word lookup (first occurrence), the search
  with an optional inclusive distance window, and enumeration of every entry.
  FAISS `search` is a function field of `FaissIndex`. `reconstruct` is the
  concrete `FaissIndex.Reconstruct` over the stored vectors: the `i`-th
  vector, or a `RuntimeError` once `i` reaches `ntotal`.
- **`WordAlchemist`** (`alchemist.dfy`, over `vectors.dfy` and `ranking.dfy`).
  It models `find_similar_words`, `word_analogy`, `semantic_mix` and
  `closest_to_line`, including:
  - argument checks and existence checks, in the code's order;
  - the mapping from similarity bounds to distance bounds;
  - operator mode and weighted mode of the mix, each with a closed form;
  - projection onto a line;
  - ranking by Python's stable `list.sort` with a `[:k]` cut, described
    independently by `Ranking.IsTopK`, which exactly one list satisfies
    (`Ranking.TopKIsUnique`).
- **Bot handler logic** (`mixparser.dfy`, `handlers.dfy`). This covers:
  - the `/mix` token loop and its count checks;
  - the `/similar` count clamp and the query-word filter;
  - the `> 0.8` discovery threshold;
  - the mapping from a raised exception to a reply;
  - each command end to end over a `Db` and a `Disk`.

The commands classify errors with the except clauses in the order the code
has them (`Handlers.Classify`). So, as in the code, a word outside the
vocabulary is answered as missing arguments. `Handlers.ClassifyIntended` and
`Handlers.SimilarReplyIntended` are the corrected versions; see Findings.

Python semantics are written out where they matter:
- `list.index` and negative subscripts (`lists.dfy`);
- `str.strip` with Python's whitespace set, `in` on strings, and
  `split("'")[1]` (`text.dfy`);
- the truthiness of an optional list (`Alchemist.Given`);
- the stability of `list.sort` (`Ranking.SortBy` and
  `Ranking.StableSortIsUnique`).

Some things are parameters:
- the norm: `norm: Vector -> real`, uninterpreted;
- `str.lower`;
- Python's `float(str)` and `int(str)`, each returning `None` where Python
  raises `ValueError`;
- the disk reads.

The `/mix` parser has two descriptions. One is the token loop as written
(`MixParser.ScanTokens`, `MixParser.ParseMix`). The other is an independent
description by segments (`MixParser.MixReference`): the operators cut the
tokens into segments, and every segment must hold a word. `ParseMix` is
proved equal to `MixReference` on every input.

## Model

| member | source | states |
|---|---|---|
| Lists.FirstIndex | database.py:54 | `None` exactly when the word is absent; otherwise the position of its first occurrence |
| Lists.PyIndex | database.py:84 | defined exactly for `-len <= i < len`; a negative index counts from the end |
| Text.Strip | database.py:33 | the result neither starts nor ends with whitespace; the input is leading whitespace + result + trailing whitespace; a token without whitespace is unchanged |
| Text.Contains | bot.py:141 | `"Слово" in str(e)`: never true when the pattern is longer than the text; the empty pattern is always contained; a one-character pattern is contained exactly when its character occurs in the text |
| Text.SecondField | bot.py:142 | `split(c)[1]` fails exactly when `c` does not occur; the field never contains `c` |
| Text.SecondFieldOfQuoted | bot.py:142 | for a message `pre 'w' post` with no quote in `pre` or `w`, the second field is exactly `w` |
| Text.StripAccumulated | bot.py:226-230 | stripping the accumulated `tok + " "` string gives the tokens joined by single spaces; it is empty exactly when no token was accumulated |
| Vectors.Normalize | alchemist.py:129-133 | a vector of norm <= 0 is unchanged; otherwise the result scaled by the norm is the input |
| Vectors.NormalizeIdempotent | alchemist.py:163-165 | for a positively homogeneous norm, normalising a normalised vector changes nothing |
| Vectors.NormalizeZero | alchemist.py:129-133 | the zero vector stays zero under the guarded normalisation, whichever branch the norm selects |
| Vectors.PointOnLineProjectsToItself | alchemist.py:194-195 | with a unit direction `d`, every point `a + t·d` projects onto itself |
| Vectors.ResidualIsPerpendicular | alchemist.py:194-206 | with a unit direction `d` and `t = dot(v - a, d)`, the residual `v - (a + t·d)` is orthogonal to the line |
| Vectors.ProjectOnLine | alchemist.py:194-195 | the projection lies on the line through `a` with direction `d`; with a unit direction, `v` minus the projection is orthogonal to `d` |
| Vectors.DistanceToLine | alchemist.py:205-206 | under a norm that vanishes only on the zero vector, distance 0 means `v` lies on the line (the converse of `PointOnLineHasDistanceZero`) |
| Vectors.ProjectionIdempotent | alchemist.py:194-195 | with a unit direction, projecting twice equals projecting once |
| Vectors.PointOnLineHasDistanceZero | alchemist.py:205-206 | a point of the line is at distance 0 from it, whenever the norm of the zero vector is 0 |
| Ranking.Take | database.py:89 | Python's `[:k]`: a prefix of length `min(k, len)`, or `len + k` for a negative `k` |
| Ranking.SortBy | database.py:88 | sorted by the key; a permutation of the input of the same length; the elements of each key value keep their input order (stability) |
| Ranking.StableSortIsUnique | alchemist.py:86 | two sorted lists with the same elements per key value, in the same order, are equal, so the stable sort's result is determined |
| Ranking.KeyClassOfPrefix | database.py:88-89 | cutting a list keeps, for every key value, a prefix of that value's elements |
| Ranking.SortedPrefixRanks | database.py:88-89 | the first `n` entries of the stable sort are a top-`n` ranking of the input in the sense of `IsTopK` |
| Ranking.PrefixRanks | database.py:88-89 | the first `n` entries of any stable sort of the input satisfy `IsTopK` for `n` |
| Ranking.TopBy | alchemist.py:86-87 | `IsTopK`: length `min(k, len)`; sorted; drawn from the input; for every key below the last kept one, all input elements with that key are kept, duplicates included; and where the cut falls inside a tie, the kept elements of that key are the earliest ones in input order |
| Ranking.TopKIsUnique | alchemist.py:86-87 | two lists that both satisfy `IsTopK` for the same input and `k >= 0` are equal, so `IsTopK` fixes the sorted-and-cut list, multiplicities included |
| Ranking.TopByIsUnique | alchemist.py:86-87 | any list satisfying `IsTopK` for `k >= 0` is the result of the stable sort followed by `[:k]` |
| Database.NewDb | database.py:8-13 | a new database has neither an index nor a word list |
| Database.Vocabulary | database.py:32-33 | one word per line, in file order, each the stripped line |
| Database.VocabularyWordsAreTrimmed | database.py:33 | each word is its line without surrounding whitespace and has none at its ends |
| Database.Load | database.py:15-42 | a loaded database is returned unchanged; otherwise a missing index file, then a missing word file, raise `FileNotFoundError`; when both files are read but the vector count differs from the word count, the result is the `ValueError` naming both counts; success means both were read and their counts agree |
| Database.LoadIsIdempotent | database.py:16-18 | after a successful load, loading again is a no-op whatever the disk holds |
| Database.MismatchIsReportedOnce | database.py:35-42 | after a count-mismatch `ValueError` both fields are set, so the next load succeeds silently |
| Database.MissingWordsAreRetried | database.py:23-36 | when the word file is missing, the index stays set but the database is not loaded, and a retry raises the same error again |
| Database.FaissIndex.Reconstruct | database.py:55 | succeeds exactly when the id is below `ntotal`, with the vector stored at that id; otherwise an error |
| Database.Len | database.py:44-45 | 0 without a word list, else its length |
| Database.WordExists | database.py:47-49 | a word exists exactly when the `list.index` lookup of `get_word_vector` finds a position for it |
| Database.VectorOf | database.py:51-57 | `ValueError` naming the word when it is absent; otherwise the vector at its first occurrence |
| Database.FirstOccurrenceWins | database.py:54-55 | a duplicated word yields the vector of its first position |
| Database.InRange | database.py:81-82 | with no bounds every distance passes; each bound is inclusive; a lower bound above the upper bound lets nothing pass |
| Database.Selected | database.py:76-82 | the kept rows are a subsequence of the search answer, each with an id other than -1 and a distance within the bounds, and every such row of the answer is kept |
| Database.LookupHits | database.py:84-85 | succeeds exactly when every id indexes the word list; then row i is `(words[id_i], d_i)`; otherwise `IndexError` |
| Database.ResolveHits | database.py:76-85 | the loop's results are the kept rows, in order, each turned into `(word, distance)`; failure is `IndexError` |
| Database.ResolvedFromSelected | database.py:76-85 | every resolved pair comes from a kept row |
| Database.ResolvedInRange | database.py:80-85 | every resolved pair carries a distance within the bounds |
| Database.SimilarWords | database.py:59-93 | with a bound: it searches all `len` entries, succeeds exactly when the loop over the answer does, and returns the top `k` of the loop's pairs by distance, ties in search order; without a bound: it succeeds exactly when every id other than -1 indexes the word list, and returns the answer of a `k`-search row for row with the -1 rows dropped; failures are `IndexError` |
| Database.UnfilteredKeepsSearchOrder | database.py:92-93 | the unfiltered path returns at most `k` rows, in search order |
| Database.AllEntries | database.py:95-109 | succeeds exactly when the index holds a vector for every word; then entry i is `(words[i], reconstruct(i))` |
| Database.EntriesFrom | database.py:104-109 | the loop from position `i` on succeeds exactly when the index holds a vector for every word (or no word remains), and then yields `(words[i + j], reconstruct(i + j))` for every later word, in order |
| Alchemist.FirstMissing | alchemist.py:59-61 | `None` exactly when every word exists; otherwise the first missing word in argument order |
| Alchemist.DistanceBound | alchemist.py:34-35 | an absent similarity bound gives an absent distance bound; a present one gives `1 - similarity` |
| Alchemist.BoundsMapCrosswise | alchemist.py:34-35 | a distance lies in `[1 - max_sim, 1 - min_sim]` exactly when `1 - distance` lies in `[min_sim, max_sim]` |
| Alchemist.FindSimilarWords | alchemist.py:28-42 | a missing word raises the missing-word error; otherwise it searches the word's vector with the crosswise bounds, and with a bound the results are sorted and every similarity is in range |
| Alchemist.SimilaritiesInRange | alchemist.py:34-42 | results that pass the crosswise distance window have similarities within the requested bounds |
| Alchemist.Candidates | alchemist.py:73-75 | the entries kept are, in order, exactly the database entries whose word is not excluded |
| Alchemist.OtherWords | alchemist.py:73-75 | the vocabulary words outside the excluded list, in order, all of them |
| Alchemist.CandidatesAreOtherWords | alchemist.py:73-75 | the candidates are, in order, the vocabulary words outside the excluded list |
| Alchemist.AnalogyScore | alchemist.py:77-82 | under the guarded normalisation, a candidate whose vector equals `c`'s has a zero offset and scores 0 |
| Alchemist.AnalogyScores | alchemist.py:77-83 | one score per candidate, in order: the normalised analogy direction dotted with the normalised `d - c` |
| Alchemist.RankAnalogy | alchemist.py:85-87 | the results are the top `k` of the scored candidates by descending score (`IsTopK` on the negated score): `min(k, candidates)` of them, best first, every candidate scoring higher than the last kept one kept, ties in vocabulary order |
| Alchemist.WordAnalogy | alchemist.py:44-87 | the first missing word of a, b, c is reported; otherwise the results exclude a, b and c, do not increase in score, number `min(k, other words)`, and are the top-`k` ranking of every other word by its analogy score (`RanksAnalogy`) |
| Alchemist.AnalogySearch | alchemist.py:63-87 | with a, b and c present: the top-`k` analogy ranking of every other word, `min(k, other words)` of them, best first, excluding the three |
| Alchemist.AnalogyRankingIsUnique | alchemist.py:85-87 | two analogy rankings of the same a, b, c over the same store are the same list |
| Alchemist.CheckMixArguments | alchemist.py:105-112 | no words, then an operator count other than `len - 1`, then a multiplier count other than `len`, in that order; an empty list counts as absent |
| Alchemist.Lowered | alchemist.py:117 | each word is lower-cased, in order |
| Alchemist.LookupAll | alchemist.py:114-120 | fails on the first lower-cased word that is missing; otherwise vector i is the vector of `lower(words[i])`, and in a one-dimension index all have the same length |
| Alchemist.FirstInvalid | alchemist.py:141-147 | `None` exactly when every operator is `+` or `-`; otherwise the first one that is not |
| Alchemist.OperatorMixUpTo | alchemist.py:136-147 | fails, naming it, on the first operator other than `+` or `-`; otherwise each coordinate is `m0·n0 ± m_i·n_i`, accumulated left to right |
| Alchemist.OperatorMixIsCombination | alchemist.py:136-147 | the operator loop computes the signed combination `Σ sign_i·m_i·n_i`, word 0 positive and word `i + 1` signed by operator `i` |
| Alchemist.WeightedSum | alchemist.py:150-156 | after `n` steps of the accumulating loop, coordinate `j` is `Σ_{i<n} m_i·n_i[j]` |
| Alchemist.WeightedMix | alchemist.py:148-160 | `Σ m_i·n_i` divided by `Σ m_i` when that total is positive, and undivided otherwise |
| Alchemist.WeightedMixIsAverage | alchemist.py:148-160 | the loop and division compute the closed-form weighted average, coordinate by coordinate |
| Alchemist.AllPlusIsWeightedSum | alchemist.py:136-156 | with only `+` operators, operator mode gives exactly the weighted sum before the division |
| Alchemist.Normalized | alchemist.py:126-133 | one vector per word, in order, each the guarded normalisation of the word's vector |
| Alchemist.Ones | alchemist.py:123-124 | the default multipliers: `len(words)` copies of 1.0 |
| Alchemist.MultipliersOrOnes | alchemist.py:122-124 | given multipliers are used unchanged; absent or empty ones become 1.0 for every word |
| Alchemist.OperatorVector | alchemist.py:135-147 | fails exactly when some operator is invalid, naming the first; otherwise the normalised signed combination |
| Alchemist.MixVector | alchemist.py:126-165 | fails exactly when an operator list is given that holds an invalid operator, naming the first; with operators the vector is the normalised signed combination of the normalised word vectors; without, the normalised weighted average of them |
| Alchemist.SemanticMix | alchemist.py:89-168 | the argument checks come first, then the first missing lower-cased word, then the first invalid operator; once all pass, the result is the unbounded `k`-search for the mixed vector of `MixVector` with the given multipliers or ones |
| Alchemist.SingleWordMix | alchemist.py:89-168 | mixing a single word searches its normalised vector |
| Alchemist.LineScores | alchemist.py:198-207 | one score per candidate, in order: its distance to the line through a and b |
| Alchemist.OnLineCandidateScoresZero | alchemist.py:201-207 | a candidate lying on the line scores 0 |
| Alchemist.RankLine | alchemist.py:209-211 | the results are the top `k` of the candidates by ascending distance to the line (`IsTopK`), ties in vocabulary order |
| Alchemist.LineRankingIsUnique | alchemist.py:209-211 | two line rankings of the same a, b over the same store are the same list |
| Alchemist.ClosestToLine | alchemist.py:170-211 | a missing a, then a missing b, is reported; otherwise the results exclude a and b, ascend, number `min(k, other words)`, and are the top-`k` ranking of every other word by distance to the line (`RanksLine`) |
| Alchemist.LineSearch | alchemist.py:186-211 | with both words present: the line ranking of every other word, `min(k, other words)` of them |
| MixParser.Segments | bot.py:206-226 | one segment more than operators; the segments of a whitespace split are whitespace splits |
| MixParser.WordTokens | bot.py:219-226 | the tokens of a segment that do not parse as numbers: all of them, in their order in the segment |
| MixParser.MultiplierDefault | bot.py:203-217 | a segment without a number has multiplier 1.0 |
| MixParser.MultiplierIsLastNumber | bot.py:220-223 | a segment's multiplier is its last number; earlier numbers are overridden |
| MixParser.MixReference | bot.py:198-242 | the parse succeeds exactly when every segment holds a word; it then has one operator fewer than words, and as many multipliers as words; failures are the three parser errors |
| MixParser.WordsOfCount | bot.py:228-242 | one word per segment exactly when every segment holds a word |
| MixParser.NoWordsOfCount | bot.py:233-235 | no words at all exactly when no segment holds a word |
| MixParser.FailureIsFinal | bot.py:207-210 | an operator after a segment without a word fails the loop, unless it is the first token |
| MixParser.CountChecks | bot.py:228-242 | after a loop that did not fail, the final word and the count checks decide as the segment description does |
| MixParser.ScanTokens | bot.py:198-226 | the loop stops early exactly when some closed segment, other than an empty leading one, has no word; otherwise its state is that of the segment description |
| MixParser.ParseMix | bot.py:198-242 | the parser equals the segment description on every token list |
| Handlers.ClampCount | bot.py:110-117 | always in 1..20: above 20 becomes 20; below 1, missing or not an integer becomes 5; otherwise kept |
| Handlers.WithoutQuery | bot.py:122 | no result equals the query ignoring case; every other result is kept, in order |
| Handlers.DropQuery | bot.py:122 | the first `min(count, n)` of the `n` results that are not the query ignoring case: a prefix of them, in search order |
| Handlers.MaxScore | bot.py:133 | the largest score of a non-empty result list |
| Handlers.Discovery | bot.py:63-67 | a discovery exactly when some score is strictly above 0.8; it credits the given word |
| Handlers.Classify | bot.py:137-147 | as written: missing arguments exactly for `ValueError` and `IndexError`; otherwise, with "Слово" in the message and an apostrophe, "word not found" naming the text between the first two apostrophes; with "Слово" and no apostrophe, the handler's own `IndexError` and no reply; without "Слово", invalid input |
| Handlers.FromMessage | bot.py:139-147 | the second clause alone: "word not found" with the second apostrophe-separated field, the handler's own `IndexError` when there is no apostrophe, invalid input when "Слово" is absent |
| Handlers.MissingWordIsMisreported | bot.py:137-138 | as written, the missing-word error of every operation is answered as missing arguments |
| Handlers.ClassifyIntended | bot.py:137-147 | corrected: a message containing "Слово" is read before the `ValueError` clause; any other exception is classified as written |
| Handlers.MissingWordIsReported | bot.py:141-145 | corrected: the missing-word error of word `w` is answered with "word not found" naming `w` |
| Handlers.MissingWordReply | bot.py:141-145 | corrected: any missing word without an apostrophe is named back |
| Handlers.PlainValueErrorIsMissingArgs | bot.py:137-138 | a `ValueError` whose message does not mention "Слово" is missing arguments under both orders |
| Handlers.ParseErrorsAreMissingArgs | bot.py:261-262 | each `/mix` parser error is answered as missing arguments under both orders |
| Handlers.Answer | bot.py:129-138 | a result list is sent with the discovery it earns for the given word; an exception gets the as-written classification |
| Handlers.AnswerNearest | bot.py:253-262 | a result list is sent unchanged, with a discovery exactly when some score is above 0.8, credited to the first (nearest) result word; an exception gets the as-written classification |
| Handlers.MissingWordAnswer | bot.py:137-138 | an operation failing with a missing-word error is answered as missing arguments by both answer forms |
| Handlers.SimilarCommand | bot.py:101-147 | no argument gives missing arguments without loading; otherwise the database is loaded, a load failure gets the as-written classification, and the reply is `SimilarReply` with the clamped count; a sent result list has at most `count` entries, excludes the query ignoring case, and credits the query on a score above 0.8 |
| Handlers.SimilarReply | bot.py:109-138 | as written, a word outside the vocabulary gives missing arguments; a present word gets the `count + 1` nearest entries of its vector with the query dropped and cut to `count` |
| Handlers.SimilarMisreportsMissingWord | bot.py:120-138 | `/similar` with a word outside a loaded vocabulary replies missing arguments, not "word not found" |
| Handlers.SimilarReplyIntended | bot.py:137-147 | corrected: a missing word without an apostrophe is named back; found results are exactly those of the as-written reply |
| Handlers.AnalogyCommand | bot.py:149-187 | anything but three arguments gives missing arguments; otherwise the database is loaded, a load failure gets the as-written classification, and the reply is `AnalogyReply`; a sent result list excludes all three words and credits the third |
| Handlers.AnalogyReply | bot.py:159-178 | any missing word of a, b, c gives missing arguments, as written; with all three present (and the index holding every word) a result list is sent; it is the analogy ranking of the top 5, excludes the three words, and credits `c` exactly when a score is above 0.8 |
| Handlers.BetweenCommand | bot.py:273-310 | anything but two arguments gives missing arguments; otherwise the database is loaded, a load failure gets the as-written classification, and the reply is `BetweenReply`; a sent result list excludes both words and credits the nearest result |
| Handlers.BetweenReply | bot.py:283-301 | a missing a or b gives missing arguments, as written; with both present (and the index holding every word) a result list is sent; it is the line ranking of the top 5, excludes both words, and earns a discovery exactly when a score is above 0.8, credited to the nearest result |
| Handlers.ParsedMixPassesChecks | bot.py:233-245 | every parse that succeeds passes `semantic_mix`'s argument checks; every failure is one of the parser's own errors |
| Handlers.MixCommand | bot.py:189-271 | a parse error gives missing arguments without loading; otherwise the database is loaded, a load failure gets the as-written classification, and after a successful load the reply is `MixReply` on the parsed words, operators and multipliers; a discovery credits the nearest result |
| Handlers.MixLoaded | bot.py:244-271 | after a parse: the database is loaded, a load failure gets the as-written classification, and otherwise the reply is `MixReply` on the loaded store |
| Handlers.MixReply | bot.py:244-262 | a missing lower-cased word gives missing arguments, as written; a result list is sent exactly when `semantic_mix`, with its default `k` of 5, succeeds, and it is that result; a failure gets the as-written classification; a discovery happens exactly when a score is above 0.8 and credits the nearest result |

## Left out

- Floating point is modelled as `real`. The model does not cover rounding, `float32` storage, NaN, infinities, or Python's `float()` accepting `"nan"`/`"inf"`.
- `np.linalg.norm` is an uninterpreted parameter. Lemmas that need more assume only that it is positively homogeneous, or that the zero vector has norm 0.
- Alchemist.WordAnalogy: the directions are divided by their norm without a guard (alchemist.py:69, 79). The model uses the guarded `Normalize` of `semantic_mix`, so a zero direction, which gives NaN in the code, is left unchanged here.
- Alchemist.AnalogyScore: the score of alchemist.py:79 divides `d - c` by its norm without a guard, so a candidate whose vector equals `c`'s gives NaN in the code. The model uses the guarded `Normalize`, under which that candidate scores 0.
- Alchemist.WordAnalogy requires `FixedDimension`: every vector the index holds has the index's dimension, as in a FAISS index. numpy would raise on vectors of different shapes, and the model does not represent that error.
- Alchemist.SemanticMix requires `FixedDimension`, for the same reason.
- Alchemist.ClosestToLine requires `FixedDimension`, for the same reason. Its unguarded division (alchemist.py:191) is modelled with the guarded `Normalize`.
- Handlers.AnalogyCommand, BetweenCommand and MixCommand require `DimensionsFixed`: the index held or read has one dimension. They pass it on to the operations above. `/similar` does no vector arithmetic, so `SimilarCommand` requires nothing of the index.
- Database.FaissIndex.Reconstruct: the model assumes that FAISS raises a `RuntimeError` for an id at or past `ntotal`, the error the Python wrapper reports for a failed C++ check. Its message text is not modelled.
- FAISS internals: `search` is abstract, and squared-Euclidean distances and index file formats are not modelled. `Database.UnfilteredKeepsSearchOrder` also assumes that a search for `k` rows returns at most `k`.
- Reading files is `Disk.readIndex` / `Disk.readLines`, which return `None` where the file does not exist. The asyncio lock and `run_in_executor` become one sequential transition.
- The leaderboard and its MongoDB calls become the `discovery` field of a reply: the word that would be credited. User creation, scores and `/leaders` are not modelled.
- aiogram plumbing is not modelled: bot setup, menu commands, `/start`, `/help`, `/commands`, logging, and the formatting of reply text.
- Command text arrives already split on whitespace. The `/mix` handler's `split(maxsplit=1)[1]` on a bare `/mix` raises `IndexError`, which the handler answers as missing arguments; the model starts from the token list.
- Scores are passed to the discovery threshold as the search returns them. For `/similar`, `/mix` and `/between` these are distances, not similarities, exactly as in the code.
- The words/multipliers count check at bot.py:238-239 is not a branch of the model, because it can never fire. `MixParser.ParseMix` asserts that the two lists always have equal length.
- download_models.py is not part of this model.

## Findings

| source | as written | input that shows it | evidently intended | confidence | as-written member | corrected member |
|---|---|---|---|---|---|---|
| bot.py:137-147 | `except (ValueError, IndexError)` comes before the clause that reads "Слово '…'" from the message, and every alchemist missing-word error is a `ValueError` | `/similar кот` where "кот" is not in the vocabulary: `find_similar_words` raises `ValueError("Слово 'кот' отсутствует в базе")` and the reply is missing arguments | reply "word not found" naming `кот` | not executed | Handlers.MissingWordIsMisreported | Handlers.MissingWordIsReported |

The commands keep the as-written order, so `Handlers.SimilarMisreportsMissingWord` shows the misreport end to end for `/similar`. `Handlers.SimilarReplyIntended` is the corrected `/similar` reply.

=== FILE: alchemist.dfy ===
/** `WordAlchemist`: similarity search, analogy solving, semantic mixing and
    line search over a loaded word database.

    Every operation checks that its words exist before it fetches a vector,
    reports a missing word as `ValueError("Слово '<word>' отсутствует в
    базе")`, and passes the database's own errors through unchanged. */
module Alchemist {
  import opened Outcomes
  import opened Lists
  import opened Vectors
  import opened Ranking
  import opened Database

  /** The error every operation raises for a word missing from the
      vocabulary. */
  function WordMissing(word: string): Exception {
    Exception(ValueError, "Слово '" + word + "' отсутствует в базе")
  }

  /** Any two vectors fetched from a store of one dimension agree in size. */
  lemma FetchedVectorsAgree(s: Store, w1: string, w2: string)
    requires FixedDimension(s.index)
    requires VectorOf(s, w1).Ok? && VectorOf(s, w2).Ok?
    ensures |VectorOf(s, w1).value| == |VectorOf(s, w2).value|
  {
  }

  /** The first of `ws` that is not in the vocabulary. */
  function FirstMissing(s: Store, ws: seq<string>): (r: Option<string>)
    ensures r.None? <==> forall i :: 0 <= i < |ws| ==> WordExists(s, ws[i])
    ensures r.Some? ==> exists i :: (0 <= i < |ws| && ws[i] == r.value && !WordExists(s, ws[i])
      && forall j :: 0 <= j < i ==> WordExists(s, ws[j]))
  {
    if |ws| == 0 then None
    else if !WordExists(s, ws[0]) then Some(ws[0])
    else
      var r := FirstMissing(s, ws[1..]);
      if r.Some? then
        var i :| 0 <= i < |ws[1..]| && ws[1..][i] == r.value && !WordExists(s, ws[1..][i])
          && forall j :: 0 <= j < i ==> WordExists(s, ws[1..][j]);
        assert ws[i + 1] == r.value && forall j :: 0 <= j < i + 1 ==> WordExists(s, ws[j]);
        r
      else r
  }

  // ---------------------------------------------------------------------
  // find_similar_words

  /** A similarity bound becomes a distance bound by `distance = 1 -
      similarity`; an absent bound stays absent. */
  function DistanceBound(similarity: Option<real>): (r: Option<real>)
    ensures r.Some? <==> similarity.Some?
    ensures r.Some? ==> r.value + similarity.value == 1.0
  {
    match similarity
    case None => None
    case Some(x) => Some(1.0 - x)
  }

  /** A similarity inside the optional inclusive bounds. */
  predicate SimilarityInRange(similarity: real, minSim: Option<real>, maxSim: Option<real>) {
    (minSim.None? || similarity >= minSim.value) && (maxSim.None? || similarity <= maxSim.value)
  }

  /** The bounds map crosswise: the maximum similarity gives the minimum
      distance and the minimum similarity the maximum distance, so a distance
      passes the distance filter exactly when its similarity `1 - d` lies in
      the similarity bounds. */
  lemma BoundsMapCrosswise(d: real, minSim: Option<real>, maxSim: Option<real>)
    ensures InRange(d, DistanceBound(maxSim), DistanceBound(minSim))
        <==> SimilarityInRange(1.0 - d, minSim, maxSim)
  {
  }

  /** `find_similar_words(word, k, min_similarity, max_similarity)`. The
      entries carry the database's distances, not similarities. */
  function FindSimilarWords(s: Store, word: string, k: int, minSim: Option<real>, maxSim: Option<real>)
    : (r: Result<seq<Scored>>)
    ensures !WordExists(s, word) ==> r == Err(WordMissing(word))
    ensures r.Ok? && (minSim.Some? || maxSim.Some?) ==>
      && SortedBy(r.value, Score)
      && forall i :: 0 <= i < |r.value| ==> SimilarityInRange(1.0 - r.value[i].1, minSim, maxSim)
    ensures WordExists(s, word) && |s.words| <= s.index.NTotal() ==>
      r == SimilarWords(s, VectorOf(s, word).value, k, DistanceBound(maxSim), DistanceBound(minSim))
  {
    if !WordExists(s, word) then Err(WordMissing(word))
    else
      var v :- VectorOf(s, word);
      var r := SimilarWords(s, v, k, DistanceBound(maxSim), DistanceBound(minSim));
      if r.Ok? && (minSim.Some? || maxSim.Some?) then
        SimilaritiesInRange(r.value, minSim, maxSim);
        r
      else r
  }

  /** Entries that passed the crosswise distance filter have similarities
      within the similarity bounds. */
  lemma SimilaritiesInRange(rs: seq<Scored>, minSim: Option<real>, maxSim: Option<real>)
    requires forall i :: 0 <= i < |rs| ==> InRange(rs[i].1, DistanceBound(maxSim), DistanceBound(minSim))
    ensures forall i :: 0 <= i < |rs| ==> SimilarityInRange(1.0 - rs[i].1, minSim, maxSim)
  {
    forall i | 0 <= i < |rs| ensures SimilarityInRange(1.0 - rs[i].1, minSim, maxSim) {
      BoundsMapCrosswise(rs[i].1, minSim, maxSim);
    }
  }

  // ---------------------------------------------------------------------
  // Candidates shared by word_analogy and closest_to_line

  /** The vocabulary entries whose word is none of `exclude`, in order. */
  function Candidates(entries: seq<(string, Vector)>, exclude: seq<string>): (r: seq<(string, Vector)>)
    ensures |r| <= |entries| && Subsequence(r, entries)
    ensures forall i :: 0 <= i < |r| ==> r[i] in entries && r[i].0 !in exclude
    ensures forall e :: e in entries && e.0 !in exclude ==> e in r
  {
    if |entries| == 0 then []
    else
      var rest := Candidates(entries[1..], exclude);
      assert forall e :: e in entries ==> e == entries[0] || e in entries[1..];
      if entries[0].0 in exclude then
        assert |rest| > 0 ==> rest[0] != entries[0];
        rest
      else [entries[0]] + rest
  }

  /** The vocabulary words that are none of `exclude`, in order. */
  function OtherWords(words: seq<string>, exclude: seq<string>): (r: seq<string>)
    ensures Subsequence(r, words)
    ensures forall i :: 0 <= i < |r| ==> r[i] !in exclude
    ensures forall w :: w in words && w !in exclude ==> w in r
  {
    if |words| == 0 then []
    else
      var rest := OtherWords(words[1..], exclude);
      assert forall w :: w in words ==> w == words[0] || w in words[1..];
      if words[0] in exclude then
        assert |rest| > 0 ==> rest[0] != words[0];
        rest
      else [words[0]] + rest
  }

  /** Over the full vocabulary, the candidates are exactly the other words. */
  lemma {:induction false} CandidatesAreOtherWords(entries: seq<(string, Vector)>, words: seq<string>, exclude: seq<string>)
    requires |entries| == |words|
    requires forall i :: 0 <= i < |words| ==> entries[i].0 == words[i]
    ensures |Candidates(entries, exclude)| == |OtherWords(words, exclude)|
    ensures forall i :: 0 <= i < |OtherWords(words, exclude)| ==>
      Candidates(entries, exclude)[i].0 == OtherWords(words, exclude)[i]
  {
    if |entries| > 0 {
      CandidatesAreOtherWords(entries[1..], words[1..], exclude);
    }
  }

  /** Every candidate vector has the dimension of any fetched vector. */
  lemma CandidatesShareDimension(s: Store, exclude: seq<string>, w: string)
    requires FixedDimension(s.index) && AllEntries(s).Ok? && VectorOf(s, w).Ok?
    ensures var cands := Candidates(AllEntries(s).value, exclude);
      forall i :: 0 <= i < |cands| ==> |cands[i].1| == |VectorOf(s, w).value|
  {
    var entries := AllEntries(s).value;
    var cands := Candidates(entries, exclude);
    forall i | 0 <= i < |cands| ensures |cands[i].1| == |VectorOf(s, w).value| {
      assert cands[i] in cands;
      var j :| 0 <= j < |entries| && entries[j] == cands[i];
    }
  }

  function NegScore(e: Scored): real {
    -e.1
  }

  // ---------------------------------------------------------------------
  // word_analogy

  /** The cosine score of a candidate `d`: the normalised direction `b - a`
      against the normalised direction `d - c`. */
  function AnalogyScore(norm: Vector -> real, direction: Vector, vc: Vector, vd: Vector): (r: real)
    requires |direction| == |vc| == |vd|
    ensures vd == vc ==> r == 0.0
  {
    SameWordScoresZero(norm, direction, vc, vd);
    Dot(direction, Normalize(norm, Sub(vd, vc)))
  }

  /** `d - c` is zero when `d == c`, and stays zero under the guarded
      normalisation, so its cosine with any direction is 0. */
  lemma SameWordScoresZero(norm: Vector -> real, direction: Vector, vc: Vector, vd: Vector)
    requires |direction| == |vc| == |vd|
    ensures vd == vc ==> Dot(direction, Normalize(norm, Sub(vd, vc))) == 0.0
  {
    if vd == vc {
      NormalizeZero(norm, Sub(vd, vc));
      DotZeroRight(direction, Normalize(norm, Sub(vd, vc)));
    }
  }

  /** Every candidate of an analogy with its score, in vocabulary order. */
  function AnalogyScores(norm: Vector -> real, direction: Vector, vc: Vector, cands: seq<(string, Vector)>)
    : (r: seq<Scored>)
    requires |direction| == |vc|
    requires forall i :: 0 <= i < |cands| ==> |cands[i].1| == |vc|
    ensures |r| == |cands|
    ensures forall i :: 0 <= i < |r| ==> r[i] == (cands[i].0, AnalogyScore(norm, direction, vc, cands[i].1))
  {
    seq(|cands|, i requires 0 <= i < |cands| => (cands[i].0, AnalogyScore(norm, direction, vc, cands[i].1)))
  }

  /** The k candidates scoring highest against the analogy direction,
      best first; equal scores keep the candidates' order. */
  function RankAnalogy(norm: Vector -> real, va: Vector, vb: Vector, vc: Vector,
                       cands: seq<(string, Vector)>, k: int): (r: seq<Scored>)
    requires |va| == |vb| == |vc|
    requires forall i :: 0 <= i < |cands| ==> |cands[i].1| == |vc|
    ensures IsTopK(r, AnalogyScores(norm, Normalize(norm, Sub(vb, va)), vc, cands), NegScore, k)
    ensures forall i :: 0 <= i < |r| ==> NamedIn(r[i].0, cands)
    ensures forall i, j :: 0 <= i < j < |r| ==> r[i].1 >= r[j].1
  {
    var scored := AnalogyScores(norm, Normalize(norm, Sub(vb, va)), vc, cands);
    var r := TopBy(scored, NegScore, k);
    RankedNamesAreCandidates(scored, cands, r);
    NegSortedIsDescending(r);
    r
  }

  /** Entries drawn from a scoring of the candidates carry candidate names. */
  lemma RankedNamesAreCandidates(scored: seq<Scored>, cands: seq<(string, Vector)>, r: seq<Scored>)
    requires |scored| == |cands| && forall i :: 0 <= i < |scored| ==> scored[i].0 == cands[i].0
    requires forall e :: e in r ==> e in scored
    ensures forall i :: 0 <= i < |r| ==> NamedIn(r[i].0, cands)
  {
    forall i | 0 <= i < |r| ensures NamedIn(r[i].0, cands) {
      assert r[i] in scored;
      var j :| 0 <= j < |scored| && scored[j] == r[i];
      assert r[i].0 == cands[j].0;
    }
  }

  /** `name` is the word of one of the candidates. */
  predicate NamedIn(name: string, cands: seq<(string, Vector)>) {
    exists j :: 0 <= j < |cands| && cands[j].0 == name
  }

  /** Ascending by negated score is descending by score. */
  lemma NegSortedIsDescending(r: seq<Scored>)
    requires SortedBy(r, NegScore)
    ensures forall i, j :: 0 <= i < j < |r| ==> r[i].1 >= r[j].1
  {
    forall i, j | 0 <= i < j < |r| ensures r[i].1 >= r[j].1 {
      assert NegScore(r[i]) <= NegScore(r[j]);
    }
  }

  /** `r` is the analogy ranking of a, b, c over the store: of every word
      other than the three, the `k` whose normalised direction from `c`
      scores highest against the normalised direction `b - a`, best first,
      and equal scores in vocabulary order. */
  ghost predicate RanksAnalogy(s: Store, norm: Vector -> real, a: string, b: string, c: string, k: int, r: seq<Scored>) {
    VectorOf(s, a).Ok? && VectorOf(s, b).Ok? && VectorOf(s, c).Ok? && AllEntries(s).Ok? &&
    var va, vb, vc := VectorOf(s, a).value, VectorOf(s, b).value, VectorOf(s, c).value;
    |va| == |vb| == |vc| &&
    var cands := Candidates(AllEntries(s).value, [a, b, c]);
    (forall i :: 0 <= i < |cands| ==> |cands[i].1| == |vc|) &&
    IsTopK(r, AnalogyScores(norm, Normalize(norm, Sub(vb, va)), vc, cands), NegScore, k)
  }

  /** The analogy ranking is determined: two rankings of a, b, c over the
      same store are the same list. */
  lemma AnalogyRankingIsUnique(s: Store, norm: Vector -> real, a: string, b: string, c: string, k: int,
                               r1: seq<Scored>, r2: seq<Scored>)
    requires k >= 0 && RanksAnalogy(s, norm, a, b, c, k, r1) && RanksAnalogy(s, norm, a, b, c, k, r2)
    ensures r1 == r2
  {
    var va, vb, vc := VectorOf(s, a).value, VectorOf(s, b).value, VectorOf(s, c).value;
    var cands := Candidates(AllEntries(s).value, [a, b, c]);
    TopKIsUnique(r1, r2, AnalogyScores(norm, Normalize(norm, Sub(vb, va)), vc, cands), NegScore, k);
  }

  /** `word_analogy(a, b, c, k)`: "a is to b as c is to ?". */
  function WordAnalogy(s: Store, norm: Vector -> real, a: string, b: string, c: string, k: int)
    : (r: Result<seq<Scored>>)
    requires FixedDimension(s.index)
    ensures FirstMissing(s, [a, b, c]).Some? ==> r == Err(WordMissing(FirstMissing(s, [a, b, c]).value))
    ensures FirstMissing(s, [a, b, c]).None? && |s.words| <= s.index.NTotal() ==> r.Ok?
    ensures r.Ok? ==> forall i :: 0 <= i < |r.value| ==> r.value[i].0 != a && r.value[i].0 != b && r.value[i].0 != c
    ensures r.Ok? ==> forall i, j :: 0 <= i < j < |r.value| ==> r.value[i].1 >= r.value[j].1
    ensures r.Ok? && k >= 0 ==>
      var others := |OtherWords(s.words, [a, b, c])|;
      |r.value| == if k < others then k else others
    ensures r.Ok? ==> RanksAnalogy(s, norm, a, b, c, k, r.value)
  {
    match FirstMissing(s, [a, b, c])
    case Some(w) => Err(WordMissing(w))
    case None =>
      assert WordExists(s, [a, b, c][0]) && WordExists(s, [a, b, c][1]) && WordExists(s, [a, b, c][2]);
      AnalogySearch(s, norm, a, b, c, k)
  }

  /** The search of `word_analogy` once the three words are known to
      exist. */
  function AnalogySearch(s: Store, norm: Vector -> real, a: string, b: string, c: string, k: int)
    : (r: Result<seq<Scored>>)
    requires FixedDimension(s.index) && WordExists(s, a) && WordExists(s, b) && WordExists(s, c)
    ensures |s.words| <= s.index.NTotal() ==> r.Ok?
    ensures r.Ok? ==> forall i :: 0 <= i < |r.value| ==> r.value[i].0 != a && r.value[i].0 != b && r.value[i].0 != c
    ensures r.Ok? ==> forall i, j :: 0 <= i < j < |r.value| ==> r.value[i].1 >= r.value[j].1
    ensures r.Ok? && k >= 0 ==>
      var others := |OtherWords(s.words, [a, b, c])|;
      |r.value| == if k < others then k else others
    ensures r.Ok? ==> RanksAnalogy(s, norm, a, b, c, k, r.value)
  {
    var va :- VectorOf(s, a);
    var vb :- VectorOf(s, b);
    var vc :- VectorOf(s, c);
    FetchedVectorsAgree(s, a, b);
    FetchedVectorsAgree(s, a, c);
    var entries :- AllEntries(s);
    var cands := Candidates(entries, [a, b, c]);
    CandidatesShareDimension(s, [a, b, c], c);
    CandidatesAreOtherWords(entries, s.words, [a, b, c]);
    Ok(RankAnalogy(norm, va, vb, vc, cands, k))
  }

  // ---------------------------------------------------------------------
  // semantic_mix

  /** Python truthiness of an optional list: `None` and `[]` are both
      "not given". */
  predicate Given<T>(o: Option<seq<T>>) {
    o.Some? && |o.value| > 0
  }

  function EmptyWords(): Exception {
    Exception(ValueError, "Список слов не может быть пустым")
  }

  function OperatorCountMismatch(): Exception {
    Exception(ValueError, "Количество операторов должно быть на один меньше количества слов")
  }

  function MultiplierCountMismatch(): Exception {
    Exception(ValueError, "Количество множителей должно совпадать с количеством слов")
  }

  function InvalidOperator(op: string): Exception {
    Exception(ValueError, "Неизвестный оператор: " + op)
  }

  /** The argument checks of `semantic_mix`, in their order, before any
      lookup: empty word list, then operator count, then multiplier
      count. */
  function CheckMixArguments(words: seq<string>, operators: Option<seq<string>>, multipliers: Option<seq<real>>)
    : (r: Option<Exception>)
    ensures r.None? <==>
      && |words| > 0
      && (Given(operators) ==> |operators.value| == |words| - 1)
      && (Given(multipliers) ==> |multipliers.value| == |words|)
    ensures |words| == 0 ==> r == Some(EmptyWords())
    ensures |words| > 0 && Given(operators) && |operators.value| != |words| - 1 ==>
      r == Some(OperatorCountMismatch())
    ensures (|words| > 0 && !(Given(operators) && |operators.value| != |words| - 1)
      && Given(multipliers) && |multipliers.value| != |words|) ==> r == Some(MultiplierCountMismatch())
  {
    if |words| == 0 then Some(EmptyWords())
    else if Given(operators) && |operators.value| != |words| - 1 then Some(OperatorCountMismatch())
    else if Given(multipliers) && |multipliers.value| != |words| then Some(MultiplierCountMismatch())
    else None
  }

  /** The words as the lookup sees them, each lower-cased. */
  function Lowered(lower: string -> string, words: seq<string>): (r: seq<string>)
    ensures |r| == |words| && forall i :: 0 <= i < |r| ==> r[i] == lower(words[i])
  {
    seq(|words|, i requires 0 <= i < |words| => lower(words[i]))
  }

  /** The lookup loop: lower-case each word, fail on the first that is
      missing, otherwise fetch its vector. */
  function LookupAll(s: Store, lower: string -> string, words: seq<string>): (r: Result<seq<Vector>>)
    ensures r.Ok? ==> |r.value| == |words|
    ensures r.Ok? ==> forall i :: 0 <= i < |words| ==>
      VectorOf(s, lower(words[i])).Ok? && r.value[i] == VectorOf(s, lower(words[i])).value
    ensures |s.words| <= s.index.NTotal() ==>
      match FirstMissing(s, Lowered(lower, words))
      case Some(w) => r == Err(WordMissing(w))
      case None => r.Ok?
    ensures r.Ok? && FixedDimension(s.index) ==>
      forall i :: 0 <= i < |r.value| ==> |r.value[i]| == |r.value[0]|
  {
    if |words| == 0 then Ok([])
    else
      var w := lower(words[0]);
      if !WordExists(s, w) then Err(WordMissing(w))
      else
        var lowered := Lowered(lower, words);
        assert lowered[1..] == Lowered(lower, words[1..]);
        assert FirstMissing(s, lowered) == FirstMissing(s, lowered[1..]);
        var v :- VectorOf(s, w);
        var rest :- LookupAll(s, lower, words[1..]);
        Ok([v] + rest)
  }

  /** The sign operator `i` (0-based) gives to word `i + 1`; the first word
      always counts positively. */
  function Sign(ops: seq<string>, i: nat): real
    requires i <= |ops|
  {
    if i > 0 && ops[i - 1] == "-" then -1.0 else 1.0
  }

  predicate ValidOperator(op: string) {
    op == "+" || op == "-"
  }

  /** The position of the first operator that is neither `+` nor `-`. */
  function FirstInvalid(ops: seq<string>): (r: Option<nat>)
    ensures r.None? <==> forall i :: 0 <= i < |ops| ==> ValidOperator(ops[i])
    ensures r.Some? ==> r.value < |ops| && !ValidOperator(ops[r.value])
    ensures r.Some? ==> forall j :: 0 <= j < r.value ==> ValidOperator(ops[j])
  {
    if |ops| == 0 then None
    else if !ValidOperator(ops[0]) then Some(0)
    else match FirstInvalid(ops[1..])
      case None => None
      case Some(i) => Some(i + 1)
  }

  /** Coordinate `j` of `Σ_{i<n} sign_i * m_i * v_i`: the independent,
      scalar statement of what operator mode computes. */
  function SignedSum(ops: seq<string>, ns: seq<Vector>, ms: seq<real>, n: nat, j: nat): real
    requires n <= |ns| == |ms| == |ops| + 1
    requires forall i :: 0 <= i < |ns| ==> j < |ns[i]|
  {
    if n == 0 then 0.0 else SignedSum(ops, ns, ms, n - 1, j) + Sign(ops, n - 1) * ms[n - 1] * ns[n - 1][j]
  }

  /** Operator mode over the first `n + 1` words: start from `m_0 * v_0` and
      add or subtract `m_i * v_i` left to right, failing on the first
      operator that is neither `+` nor `-`. */
  function OperatorMixUpTo(ops: seq<string>, ns: seq<Vector>, ms: seq<real>, n: nat): (r: Result<Vector>)
    requires n <= |ops| && |ns| == |ms| == |ops| + 1
    requires forall i :: 0 <= i < |ns| ==> |ns[i]| == |ns[0]|
    ensures r.Ok? <==> forall i :: 0 <= i < n ==> ValidOperator(ops[i])
    ensures r.Ok? ==> |r.value| == |ns[0]|
    ensures r.Ok? ==> forall j :: 0 <= j < |ns[0]| ==> r.value[j] == SignedSum(ops, ns, ms, n + 1, j)
    ensures r.Err? ==> exists i :: (0 <= i < n && !ValidOperator(ops[i])
      && (forall m :: 0 <= m < i ==> ValidOperator(ops[m])) && r.error == InvalidOperator(ops[i]))
  {
    if n == 0 then Ok(Scale(ms[0], ns[0]))
    else
      var acc :- OperatorMixUpTo(ops, ns, ms, n - 1);
      var term := Scale(ms[n], ns[n]);
      if ops[n - 1] == "+" then Ok(Add(acc, term))
      else if ops[n - 1] == "-" then Ok(Sub(acc, term))
      else Err(InvalidOperator(ops[n - 1]))
  }

  /** Coordinate `j` of `Σ_{i<n} m_i * v_i`. */
  function WeightedCoordinate(ns: seq<Vector>, ms: seq<real>, n: nat, j: nat): real
    requires n <= |ns| == |ms|
    requires forall i :: 0 <= i < |ns| ==> j < |ns[i]|
  {
    if n == 0 then 0.0 else WeightedCoordinate(ns, ms, n - 1, j) + ms[n - 1] * ns[n - 1][j]
  }

  /** `Σ_{i<n} m_i` */
  function TotalWeight(ms: seq<real>, n: nat): real
    requires n <= |ms|
  {
    if n == 0 then 0.0 else TotalWeight(ms, n - 1) + ms[n - 1]
  }

  /** The loop `mixed += vec * weight` over the first `n` words, starting
      from the zero vector. */
  function WeightedSum(ns: seq<Vector>, ms: seq<real>, n: nat): (r: Vector)
    requires 0 < |ns| == |ms| && n <= |ns|
    requires forall i :: 0 <= i < |ns| ==> |ns[i]| == |ns[0]|
    ensures |r| == |ns[0]|
    ensures forall j :: 0 <= j < |r| ==> r[j] == WeightedCoordinate(ns, ms, n, j)
  {
    if n == 0 then Zero(|ns[0]|) else Add(WeightedSum(ns, ms, n - 1), Scale(ms[n - 1], ns[n - 1]))
  }

  /** Weighted mode: the weighted sum, divided by the total weight only when
      that total is positive. */
  function WeightedMix(ns: seq<Vector>, ms: seq<real>): (r: Vector)
    requires 0 < |ns| == |ms|
    requires forall i :: 0 <= i < |ns| ==> |ns[i]| == |ns[0]|
    ensures |r| == |ns[0]|
    ensures TotalWeight(ms, |ms|) > 0.0 ==> forall j :: 0 <= j < |r| ==>
      r[j] * TotalWeight(ms, |ms|) == WeightedCoordinate(ns, ms, |ns|, j)
    ensures TotalWeight(ms, |ms|) <= 0.0 ==> forall j :: 0 <= j < |r| ==>
      r[j] == WeightedCoordinate(ns, ms, |ns|, j)
  {
    var sum := WeightedSum(ns, ms, |ns|);
    var total := TotalWeight(ms, |ms|);
    if total > 0.0 then
      var r := Scale(1.0 / total, sum);
      assert forall j :: 0 <= j < |r| ==> r[j] * total == sum[j] by {
        forall j | 0 <= j < |r| ensures r[j] * total == sum[j] {
          assert (1.0 / total) * total == 1.0;
          calc {
            r[j] * total;
            ((1.0 / total) * sum[j]) * total;
            ((1.0 / total) * total) * sum[j];
            sum[j];
          }
        }
      }
      r
    else sum
  }

  /** Operator mode in closed form: coordinate `j` is
      `Σ_i sign_i * m_i * n_i[j]` over all the words. */
  function SignedCombination(ops: seq<string>, ns: seq<Vector>, ms: seq<real>): (r: Vector)
    requires |ns| == |ms| == |ops| + 1
    requires forall i :: 0 <= i < |ns| ==> |ns[i]| == |ns[0]|
    ensures |r| == |ns[0]|
  {
    seq(|ns[0]|, j requires 0 <= j < |ns[0]| => SignedSum(ops, ns, ms, |ns|, j))
  }

  /** Weighted mode in closed form: coordinate `j` is `Σ_i m_i * n_i[j]`,
      divided by `Σ_i m_i` when that total is positive. */
  function WeightedAverage(ns: seq<Vector>, ms: seq<real>): (r: Vector)
    requires 0 < |ns| == |ms|
    requires forall i :: 0 <= i < |ns| ==> |ns[i]| == |ns[0]|
    ensures |r| == |ns[0]|
  {
    var total := TotalWeight(ms, |ms|);
    seq(|ns[0]|, j requires 0 <= j < |ns[0]| =>
      if total > 0.0 then WeightedCoordinate(ns, ms, |ns|, j) / total else WeightedCoordinate(ns, ms, |ns|, j))
  }

  /** The accumulating loop of weighted mode computes the closed form. */
  lemma WeightedMixIsAverage(ns: seq<Vector>, ms: seq<real>)
    requires 0 < |ns| == |ms|
    requires forall i :: 0 <= i < |ns| ==> |ns[i]| == |ns[0]|
    ensures WeightedMix(ns, ms) == WeightedAverage(ns, ms)
  {
    var r, w := WeightedMix(ns, ms), WeightedAverage(ns, ms);
    var total := TotalWeight(ms, |ms|);
    forall j | 0 <= j < |r| ensures r[j] == w[j] {
      var c := WeightedCoordinate(ns, ms, |ns|, j);
      if total > 0.0 {
        assert r[j] * total == c;
        assert r[j] == c / total;
      }
    }
  }

  /** The left-to-right operator loop over every operator computes the
      closed form. */
  lemma OperatorMixIsCombination(ops: seq<string>, ns: seq<Vector>, ms: seq<real>)
    requires |ns| == |ms| == |ops| + 1
    requires forall i :: 0 <= i < |ns| ==> |ns[i]| == |ns[0]|
    requires OperatorMixUpTo(ops, ns, ms, |ops|).Ok?
    ensures OperatorMixUpTo(ops, ns, ms, |ops|).value == SignedCombination(ops, ns, ms)
  {
  }

  /** The word vectors, each normalised. */
  function Normalized(norm: Vector -> real, vectors: seq<Vector>): (ns: seq<Vector>)
    ensures |ns| == |vectors|
    ensures forall i :: 0 <= i < |ns| ==> ns[i] == Normalize(norm, vectors[i])
  {
    seq(|vectors|, i requires 0 <= i < |vectors| => Normalize(norm, vectors[i]))
  }

  /** Operator mode of `semantic_mix` on the normalised vectors: the first
      invalid operator is reported, otherwise the signed combination is
      normalised. */
  function OperatorVector(norm: Vector -> real, ns: seq<Vector>, ops: seq<string>, ms: seq<real>)
    : (r: Result<Vector>)
    requires |ns| == |ms| == |ops| + 1
    requires forall i :: 0 <= i < |ns| ==> |ns[i]| == |ns[0]|
    ensures r.Ok? ==> |r.value| == |ns[0]|
    ensures r.Err? <==> FirstInvalid(ops).Some?
    ensures r.Err? ==> r.error == InvalidOperator(ops[FirstInvalid(ops).value])
    ensures r.Ok? ==> r.value == Normalize(norm, SignedCombination(ops, ns, ms))
  {
    var mixed :- OperatorMixUpTo(ops, ns, ms, |ops|);
    OperatorMixIsCombination(ops, ns, ms);
    Ok(Normalize(norm, mixed))
  }

  /** Multipliers default to 1.0 for every word. */
  function Ones(n: nat): (r: seq<real>)
    ensures |r| == n && forall i :: 0 <= i < n ==> r[i] == 1.0
  {
    seq(n, _ => 1.0)
  }

  /** The vector `semantic_mix` searches with, once the arguments have
      passed their checks: every word vector normalised, combined by the
      operators or as a weighted average, and normalised again. */
  function MixVector(norm: Vector -> real, vectors: seq<Vector>, operators: Option<seq<string>>, ms: seq<real>)
    : (r: Result<Vector>)
    requires 0 < |vectors| == |ms|
    requires forall i :: 0 <= i < |vectors| ==> |vectors[i]| == |vectors[0]|
    requires Given(operators) ==> |operators.value| == |vectors| - 1
    ensures r.Ok? ==> |r.value| == |vectors[0]|
    ensures r.Err? <==> Given(operators) && FirstInvalid(operators.value).Some?
    ensures r.Err? ==> r.error == InvalidOperator(operators.value[FirstInvalid(operators.value).value])
    ensures r.Ok? && Given(operators) ==>
      r.value == Normalize(norm, SignedCombination(operators.value, Normalized(norm, vectors), ms))
    ensures !Given(operators) ==> r == Ok(Normalize(norm, WeightedAverage(Normalized(norm, vectors), ms)))
  {
    var ns := Normalized(norm, vectors);
    assert forall i :: 0 <= i < |ns| ==> |ns[i]| == |ns[0]|;
    if Given(operators) then OperatorVector(norm, ns, operators.value, ms)
    else
      WeightedMixIsAverage(ns, ms);
      Ok(Normalize(norm, WeightedMix(ns, ms)))
  }

  /** The multipliers `semantic_mix` uses: the given ones, or 1.0 for every
      word when none are given. */
  function MultipliersOrOnes(multipliers: Option<seq<real>>, n: nat): (ms: seq<real>)
    requires Given(multipliers) ==> |multipliers.value| == n
    ensures |ms| == n
    ensures Given(multipliers) ==> ms == multipliers.value
    ensures !Given(multipliers) ==> forall i :: 0 <= i < n ==> ms[i] == 1.0
  {
    if Given(multipliers) then multipliers.value else Ones(n)
  }

  /** `semantic_mix(words, operators, multipliers, k)`. */
  function SemanticMix(
    s: Store, norm: Vector -> real, lower: string -> string,
    words: seq<string>, operators: Option<seq<string>>, multipliers: Option<seq<real>>, k: int)
    : (r: Result<seq<Scored>>)
    requires FixedDimension(s.index)
    ensures CheckMixArguments(words, operators, multipliers).Some? ==>
      r == Err(CheckMixArguments(words, operators, multipliers).value)
    ensures CheckMixArguments(words, operators, multipliers).None? && |s.words| <= s.index.NTotal() ==>
      FirstMissing(s, Lowered(lower, words)).Some? ==>
        r == Err(WordMissing(FirstMissing(s, Lowered(lower, words)).value))
    ensures (CheckMixArguments(words, operators, multipliers).None? && LookupAll(s, lower, words).Ok?
      && Given(operators) && FirstInvalid(operators.value).Some?) ==>
      r == Err(InvalidOperator(operators.value[FirstInvalid(operators.value).value]))
    ensures CheckMixArguments(words, operators, multipliers).None? && LookupAll(s, lower, words).Ok? ==>
      var mixed := MixVector(norm, LookupAll(s, lower, words).value, operators, MultipliersOrOnes(multipliers, |words|));
      mixed.Ok? ==> r == SimilarWords(s, mixed.value, k, None, None)
  {
    match CheckMixArguments(words, operators, multipliers)
    case Some(e) => Err(e)
    case None =>
      var vectors :- LookupAll(s, lower, words);
      var ms := MultipliersOrOnes(multipliers, |words|);
      var mixed :- MixVector(norm, vectors, operators, ms);
      SimilarWords(s, mixed, k, None, None)
  }

  /** With every operator `+`, operator mode sums exactly what weighted mode
      sums before its division by the total weight. */
  lemma {:induction false} AllPlusIsWeightedSum(ops: seq<string>, ns: seq<Vector>, ms: seq<real>, n: nat)
    requires n <= |ops| && |ns| == |ms| == |ops| + 1
    requires forall i :: 0 <= i < |ns| ==> |ns[i]| == |ns[0]|
    requires forall i :: 0 <= i < |ops| ==> ops[i] == "+"
    ensures OperatorMixUpTo(ops, ns, ms, n) == Ok(WeightedSum(ns, ms, n + 1))
  {
    assert forall i :: 0 <= i < n ==> ValidOperator(ops[i]);
    var r := OperatorMixUpTo(ops, ns, ms, n).value;
    var w := WeightedSum(ns, ms, n + 1);
    forall j | 0 <= j < |w| ensures r[j] == w[j] {
      SignedSumOfPluses(ops, ns, ms, n + 1, j);
    }
    assert r == w;
  }

  lemma {:induction false} SignedSumOfPluses(ops: seq<string>, ns: seq<Vector>, ms: seq<real>, n: nat, j: nat)
    requires n <= |ns| == |ms| == |ops| + 1
    requires forall i :: 0 <= i < |ns| ==> j < |ns[i]|
    requires forall i :: 0 <= i < |ops| ==> ops[i] == "+"
    ensures SignedSum(ops, ns, ms, n, j) == WeightedCoordinate(ns, ms, n, j)
  {
    if n > 0 {
      SignedSumOfPluses(ops, ns, ms, n - 1, j);
    }
  }

  /** Mixing one word finds the neighbours of that word's normalised vector:
      the single vector is normalised, weighted by 1.0, divided by the total
      1.0 and normalised again, which for a norm that scales with positive
      factors changes nothing further. */
  lemma SingleWordMix(s: Store, norm: Vector -> real, lower: string -> string, word: string, k: int)
    requires FixedDimension(s.index) && PositivelyHomogeneous(norm)
    requires VectorOf(s, lower(word)).Ok?
    ensures SemanticMix(s, norm, lower, [word], None, None, k)
      == SimilarWords(s, Normalize(norm, VectorOf(s, lower(word)).value), k, None, None)
  {
    var v := VectorOf(s, lower(word)).value;
    LookupOne(s, lower, word);
    MixOfOne(norm, v);
  }

  /** Looking up a single word that exists yields its vector. */
  lemma LookupOne(s: Store, lower: string -> string, word: string)
    requires VectorOf(s, lower(word)).Ok?
    ensures LookupAll(s, lower, [word]) == Ok([VectorOf(s, lower(word)).value])
  {
    var v := VectorOf(s, lower(word)).value;
    assert WordExists(s, lower(word));
    assert [word][1..] == [];
    assert LookupAll(s, lower, []) == Ok([]);
    assert [v] + [] == [v];
  }

  /** Weighted mode over one vector with the default multiplier returns that
      vector normalised. */
  lemma MixOfOne(norm: Vector -> real, v: Vector)
    requires PositivelyHomogeneous(norm)
    ensures MixVector(norm, [v], None, Ones(1)) == Ok(Normalize(norm, v))
  {
    var n := Normalize(norm, v);
    var ns := [n];
    assert seq(1, i requires 0 <= i < 1 => Normalize(norm, [v][i])) == ns;
    var w := WeightedMix(ns, Ones(1));
    assert w == n by {
      assert TotalWeight(Ones(1), 1) == 1.0;
      forall j | 0 <= j < |n| ensures w[j] == n[j] {
        assert WeightedCoordinate(ns, Ones(1), 1, j) == n[j];
      }
    }
    NormalizeIdempotent(norm, v);
  }

  // ---------------------------------------------------------------------
  // closest_to_line

  /** Every candidate with its distance to the line, in vocabulary order. */
  function LineScores(norm: Vector -> real, va: Vector, direction: Vector, cands: seq<(string, Vector)>)
    : (r: seq<Scored>)
    requires |direction| == |va|
    requires forall i :: 0 <= i < |cands| ==> |cands[i].1| == |va|
    ensures |r| == |cands|
    ensures forall i :: 0 <= i < |r| ==> r[i] == (cands[i].0, DistanceToLine(norm, va, direction, cands[i].1))
  {
    seq(|cands|, i requires 0 <= i < |cands| => (cands[i].0, DistanceToLine(norm, va, direction, cands[i].1)))
  }

  /** A candidate lying on the line scores zero when the direction has unit
      length and the norm vanishes on the zero vector. */
  lemma OnLineCandidateScoresZero(
    norm: Vector -> real, va: Vector, direction: Vector, cands: seq<(string, Vector)>, i: nat, t: real)
    requires |direction| == |va| && Dot(direction, direction) == 1.0 && ZeroHasNormZero(norm)
    requires forall m :: 0 <= m < |cands| ==> |cands[m].1| == |va|
    requires i < |cands| && cands[i].1 == Add(va, Scale(t, direction))
    ensures LineScores(norm, va, direction, cands)[i].1 == 0.0
  {
    PointOnLineHasDistanceZero(norm, va, direction, t);
  }

  /** The k candidates nearest to the line through `va` and `vb`, nearest
      first; equal distances keep the candidates' order. */
  function RankLine(norm: Vector -> real, va: Vector, vb: Vector,
                    cands: seq<(string, Vector)>, k: int): (r: seq<Scored>)
    requires |va| == |vb|
    requires forall i :: 0 <= i < |cands| ==> |cands[i].1| == |va|
    ensures IsTopK(r, LineScores(norm, va, Normalize(norm, Sub(vb, va)), cands), Score, k)
    ensures forall i :: 0 <= i < |r| ==> NamedIn(r[i].0, cands)
  {
    var scored := LineScores(norm, va, Normalize(norm, Sub(vb, va)), cands);
    var r := TopBy(scored, Score, k);
    RankedNamesAreCandidates(scored, cands, r);
    r
  }

  /** `r` is the line ranking of a and b over the store: of every word other
      than the two, the `k` nearest to the line through their vectors,
      nearest first, and equal distances in vocabulary order. */
  ghost predicate RanksLine(s: Store, norm: Vector -> real, a: string, b: string, k: int, r: seq<Scored>) {
    VectorOf(s, a).Ok? && VectorOf(s, b).Ok? && AllEntries(s).Ok? &&
    var va, vb := VectorOf(s, a).value, VectorOf(s, b).value;
    |va| == |vb| &&
    var cands := Candidates(AllEntries(s).value, [a, b]);
    (forall i :: 0 <= i < |cands| ==> |cands[i].1| == |va|) &&
    IsTopK(r, LineScores(norm, va, Normalize(norm, Sub(vb, va)), cands), Score, k)
  }

  /** The line ranking is determined: two rankings of a, b over the same
      store are the same list. */
  lemma LineRankingIsUnique(s: Store, norm: Vector -> real, a: string, b: string, k: int,
                            r1: seq<Scored>, r2: seq<Scored>)
    requires k >= 0 && RanksLine(s, norm, a, b, k, r1) && RanksLine(s, norm, a, b, k, r2)
    ensures r1 == r2
  {
    var va, vb := VectorOf(s, a).value, VectorOf(s, b).value;
    var cands := Candidates(AllEntries(s).value, [a, b]);
    TopKIsUnique(r1, r2, LineScores(norm, va, Normalize(norm, Sub(vb, va)), cands), Score, k);
  }

  /** `closest_to_line(a, b, k)`: the words nearest to the line through `a`
      and `b`, nearest first. */
  function ClosestToLine(s: Store, norm: Vector -> real, a: string, b: string, k: int)
    : (r: Result<seq<Scored>>)
    requires FixedDimension(s.index)
    ensures !WordExists(s, a) ==> r == Err(WordMissing(a))
    ensures WordExists(s, a) && !WordExists(s, b) ==> r == Err(WordMissing(b))
    ensures WordExists(s, a) && WordExists(s, b) && |s.words| <= s.index.NTotal() ==> r.Ok?
    ensures r.Ok? ==> forall i :: 0 <= i < |r.value| ==> r.value[i].0 != a && r.value[i].0 != b
    ensures r.Ok? ==> SortedBy(r.value, Score)
    ensures r.Ok? && k >= 0 ==>
      var others := |OtherWords(s.words, [a, b])|;
      |r.value| == if k < others then k else others
    ensures r.Ok? ==> RanksLine(s, norm, a, b, k, r.value)
  {
    if !WordExists(s, a) then Err(WordMissing(a))
    else if !WordExists(s, b) then Err(WordMissing(b))
    else LineSearch(s, norm, a, b, k)
  }

  /** The search of `closest_to_line` once both words are known to exist. */
  function LineSearch(s: Store, norm: Vector -> real, a: string, b: string, k: int)
    : (r: Result<seq<Scored>>)
    requires FixedDimension(s.index) && WordExists(s, a) && WordExists(s, b)
    ensures |s.words| <= s.index.NTotal() ==> r.Ok?
    ensures r.Ok? ==> forall i :: 0 <= i < |r.value| ==> r.value[i].0 != a && r.value[i].0 != b
    ensures r.Ok? && k >= 0 ==>
      var others := |OtherWords(s.words, [a, b])|;
      |r.value| == if k < others then k else others
    ensures r.Ok? ==> RanksLine(s, norm, a, b, k, r.value)
  {
    var va :- VectorOf(s, a);
    var vb :- VectorOf(s, b);
    FetchedVectorsAgree(s, a, b);
    var entries :- AllEntries(s);
    var cands := Candidates(entries, [a, b]);
    CandidatesShareDimension(s, [a, b], a);
    CandidatesAreOtherWords(entries, s.words, [a, b]);
    Ok(RankLine(norm, va, vb, cands, k))
  }
}

=== FILE: database.dfy ===
/** The word database: a FAISS index and the word list aligned with it by
    position, loaded once from two files, and the lookups and the
    distance-filtered nearest-neighbour search built on them.

    The index's nearest-neighbour search is opaque: it is a function field
    of `FaissIndex`, and the model states only what the database does with
    its answer. `reconstruct(i)` is the `i`-th stored vector. */
module Database {
  import opened Outcomes
  import opened Lists
  import opened Text
  import opened Vectors
  import opened Ranking

  /** One row of a FAISS answer: a distance and the id of the vector, or id
      -1 where the index had fewer results than requested. */
  type Hit = (real, int)

  /** A word with its distance or score, as the queries return it. */
  type Scored = (string, real)

  function Score(e: Scored): real {
    e.1
  }

  /** A loaded FAISS index: its vectors (`ntotal` is their count) and its
      search, which answers a query vector and a result count `k`. */
  datatype FaissIndex = FaissIndex(vectors: seq<Vector>, search: (Vector, int) -> seq<Hit>)
  {
    function NTotal(): nat {
      |vectors|
    }

    /** `index.reconstruct(i)`, which FAISS refuses past `ntotal`. */
    function Reconstruct(i: nat): (r: Result<Vector>)
      ensures r.Ok? <==> i < NTotal()
      ensures r.Ok? ==> r.value == vectors[i]
    {
      if i < |vectors| then Ok(vectors[i])
      else Err(Exception(RuntimeError, "reconstruct: id out of range"))
    }
  }

  /** All vectors of the index have one dimension, as a FAISS index
      guarantees. */
  predicate FixedDimension(index: FaissIndex) {
    forall i, j :: 0 <= i < |index.vectors| && 0 <= j < |index.vectors| ==>
      |index.vectors[i]| == |index.vectors[j]|
  }

  /** FAISS answers a search for `k` results with exactly `k` rows. */
  ghost predicate SearchReturnsK(index: FaissIndex) {
    forall v: Vector, k: int {:trigger index.search(v, k)} :: k >= 0 ==> |index.search(v, k)| == k
  }

  /** The files the database reads: `None` where the path does not exist. The
      word list is given as the file's lines, line terminators included. */
  datatype Disk = Disk(
    readIndex: string -> Option<FaissIndex>,
    readLines: string -> Option<seq<string>>)

  /** `AsyncWordDatabase`: the two paths and the two fields `load` fills. */
  datatype Db = Db(
    indexPath: string,
    wordsPath: string,
    index: Option<FaissIndex>,
    words: Option<seq<string>>)

  /** A freshly constructed database holds neither the index nor the words. */
  function NewDb(indexPath: string, wordsPath: string): (db: Db)
    ensures db.index.None? && db.words.None?
    ensures db.indexPath == indexPath && db.wordsPath == wordsPath
  {
    Db(indexPath, wordsPath, None, None)
  }

  predicate Loaded(db: Db) {
    db.index.Some? && db.words.Some?
  }

  /** The vocabulary read from the word list: every line stripped of
      surrounding whitespace, in file order. */
  function Vocabulary(lines: seq<string>): (words: seq<string>)
    ensures |words| == |lines|
    ensures forall i :: 0 <= i < |words| ==> words[i] == Strip(lines[i])
  {
    seq(|lines|, i requires 0 <= i < |lines| => Strip(lines[i]))
  }

  /** Every vocabulary word is free of surrounding whitespace and is its
      line with only whitespace removed around it. */
  lemma VocabularyWordsAreTrimmed(lines: seq<string>, i: nat)
    requires i < |lines|
    ensures var w := Vocabulary(lines)[i];
      && (w == [] || (!IsSpace(w[0]) && !IsSpace(w[|w| - 1])))
      && lines[i] == lines[i][..LeadingSpaces(lines[i])] + w + lines[i][LeadingSpaces(lines[i]) + |w|..]
      && (forall j :: 0 <= j < LeadingSpaces(lines[i]) ==> IsSpace(lines[i][j]))
      && (forall j :: LeadingSpaces(lines[i]) + |w| <= j < |lines[i]| ==> IsSpace(lines[i][j]))
  {
  }

  function CountMismatch(ntotal: nat, nwords: nat): Exception {
    Exception(ValueError,
      "Number of vectors in index (" + NatToString(ntotal) + ") does not match number of words ("
      + NatToString(nwords) + ")")
  }

  /** `load()`: returns at once when both fields are set; otherwise reads the
      index, then the word list, assigning each field as it is read, and only
      then compares the vector count with the word count. */
  function Load(db: Db, disk: Disk): (r: (Db, Result<()>))
    ensures Loaded(db) ==> r == (db, Ok(()))
    ensures r.0.indexPath == db.indexPath && r.0.wordsPath == db.wordsPath
    ensures r.1.Ok? ==> Loaded(r.0)
    ensures !Loaded(db) && r.1.Ok? ==> r.0.index.value.NTotal() == |r.0.words.value|
    ensures !Loaded(db) ==>
      (r.1.Ok? <==>
        && disk.readIndex(db.indexPath).Some?
        && disk.readLines(db.wordsPath).Some?
        && disk.readIndex(db.indexPath).value.NTotal() == |disk.readLines(db.wordsPath).value|)
    ensures !Loaded(db) && disk.readIndex(db.indexPath).None? ==>
      r == (db, Err(Exception(FileNotFoundError, "Index file not found: " + db.indexPath)))
    ensures !Loaded(db) && disk.readIndex(db.indexPath).Some? && disk.readLines(db.wordsPath).None? ==>
      r == (db.(index := disk.readIndex(db.indexPath)),
            Err(Exception(FileNotFoundError, "Words list file not found: " + db.wordsPath)))
    ensures !Loaded(db) && disk.readIndex(db.indexPath).Some? && disk.readLines(db.wordsPath).Some? ==>
      && Loaded(r.0)
      && r.0.index == disk.readIndex(db.indexPath)
      && r.0.words == Some(Vocabulary(disk.readLines(db.wordsPath).value))
    ensures !Loaded(db) && disk.readIndex(db.indexPath).Some? && disk.readLines(db.wordsPath).Some? ==>
      var ntotal, nwords := disk.readIndex(db.indexPath).value.NTotal(), |disk.readLines(db.wordsPath).value|;
      ntotal != nwords ==> r.1 == Err(CountMismatch(ntotal, nwords))
  {
    if Loaded(db) then (db, Ok(()))
    else match disk.readIndex(db.indexPath)
      case None =>
        (db, Err(Exception(FileNotFoundError, "Index file not found: " + db.indexPath)))
      case Some(index) =>
        var withIndex := db.(index := Some(index));
        match disk.readLines(db.wordsPath)
        case None =>
          (withIndex, Err(Exception(FileNotFoundError, "Words list file not found: " + db.wordsPath)))
        case Some(lines) =>
          var words := Vocabulary(lines);
          var withWords := withIndex.(words := Some(words));
          if index.NTotal() != |words| then
            (withWords, Err(CountMismatch(index.NTotal(), |words|)))
          else
            (withWords, Ok(()))
  }

  /** Loading is idempotent: a load that succeeded leaves a database that
      every later load returns unchanged. */
  lemma LoadIsIdempotent(db: Db, disk: Disk, disk': Disk)
    requires Load(db, disk).1.Ok?
    ensures Load(Load(db, disk).0, disk') == (Load(db, disk).0, Ok(()))
  {
  }

  /** A count mismatch is reported only once: the fields are already set, so
      the next load returns silently and leaves the mismatched state in
      place. */
  lemma MismatchIsReportedOnce(db: Db, disk: Disk, disk': Disk)
    requires !Loaded(db)
    requires Load(db, disk).1.Err? && Load(db, disk).1.error.kind == ValueError
    ensures Loaded(Load(db, disk).0)
    ensures Load(db, disk).0.index.value.NTotal() != |Load(db, disk).0.words.value|
    ensures Load(Load(db, disk).0, disk') == (Load(db, disk).0, Ok(()))
  {
  }

  /** A missing word list leaves the words unset, so the next load reads the
      index again. */
  lemma MissingWordsAreRetried(db: Db, disk: Disk)
    requires db.index.None? && db.words.None?
    requires disk.readIndex(db.indexPath).Some? && disk.readLines(db.wordsPath).None?
    ensures !Loaded(Load(db, disk).0)
    ensures Load(Load(db, disk).0, disk) == Load(db, disk)
  {
    var index := disk.readIndex(db.indexPath);
    var db1 := db.(index := index);
    assert Load(db, disk).0 == db1;
    assert db1.(index := index) == db1;
  }

  /** `len(db)`: the number of words, 0 before the word list is read. */
  function Len(db: Db): (n: nat)
    ensures db.words.None? ==> n == 0
    ensures db.words.Some? ==> n == |db.words.value|
  {
    if db.words.Some? && |db.words.value| > 0 then |db.words.value| else 0
  }

  /** A loaded database: the index and the word list. */
  datatype Store = Store(index: FaissIndex, words: seq<string>)

  function StoreOf(db: Db): (s: Store)
    requires Loaded(db)
    ensures s.words == db.words.value && s.index == db.index.value
    ensures |s.words| == Len(db)
  {
    Store(db.index.value, db.words.value)
  }

  /** `word_exists(word)`: list membership. It agrees with the `list.index`
      lookup `get_word_vector` makes. */
  function WordExists(s: Store, word: string): (b: bool)
    ensures b <==> FirstIndex(s.words, word).Some?
  {
    word in s.words
  }

  function WordNotInDatabase(word: string): Exception {
    Exception(ValueError, "Word '" + word + "' not found in database")
  }

  /** `get_word_vector(word)`: the vector stored at the first position of
      `word`. */
  function VectorOf(s: Store, word: string): (r: Result<Vector>)
    ensures word !in s.words ==> r == Err(WordNotInDatabase(word))
    ensures r.Ok? ==>
      exists i :: 0 <= i < |s.words| && s.words[i] == word && (forall j :: 0 <= j < i ==> s.words[j] != word)
        && i < s.index.NTotal() && r.value == s.index.vectors[i]
    ensures word in s.words && |s.words| <= s.index.NTotal() ==> r.Ok?
  {
    match FirstIndex(s.words, word)
    case None => Err(WordNotInDatabase(word))
    case Some(i) => s.index.Reconstruct(i)
  }

  /** In a vocabulary whose word occurs several times, the vector of the
      first occurrence is returned. */
  lemma FirstOccurrenceWins(s: Store, word: string, i: nat)
    requires i < |s.words| <= s.index.NTotal()
    requires s.words[i] == word && forall j :: 0 <= j < i ==> s.words[j] != word
    ensures VectorOf(s, word) == Ok(s.index.vectors[i])
  {
    var r := VectorOf(s, word);
    var j :| 0 <= j < |s.words| && s.words[j] == word && (forall m :: 0 <= m < j ==> s.words[m] != word)
      && j < s.index.NTotal() && r.value == s.index.vectors[j];
    assert j == i;
  }

  /** A distance inside the optional inclusive bounds. */
  function InRange(d: real, minDist: Option<real>, maxDist: Option<real>): (b: bool)
    ensures minDist.None? && maxDist.None? ==> b
    ensures minDist == Some(d) && (maxDist.None? || d <= maxDist.value) ==> b
    ensures maxDist == Some(d) && (minDist.None? || minDist.value <= d) ==> b
    ensures minDist.Some? && maxDist.Some? && minDist.value > maxDist.value ==> !b
  {
    (minDist.None? || d >= minDist.value) && (maxDist.None? || d <= maxDist.value)
  }

  /** The rows of a search answer that name a vector (id not -1) and whose
      distance lies in the bounds, in search order. */
  function Selected(hits: seq<Hit>, minDist: Option<real>, maxDist: Option<real>): (r: seq<Hit>)
    ensures |r| <= |hits| && Subsequence(r, hits)
    ensures forall i :: 0 <= i < |r| ==> r[i].1 != -1 && InRange(r[i].0, minDist, maxDist)
    ensures forall h :: h in hits && h.1 != -1 && InRange(h.0, minDist, maxDist) ==> h in r
  {
    if |hits| == 0 then []
    else
      var rest := Selected(hits[1..], minDist, maxDist);
      assert forall h :: h in hits ==> h == hits[0] || h in hits[1..];
      if hits[0].1 != -1 && InRange(hits[0].0, minDist, maxDist) then [hits[0]] + rest
      else
        assert |rest| > 0 ==> rest[0] != hits[0];
        rest
  }

  /** The loop over a search answer: skips id -1 and distances out of the
      bounds, and looks each remaining id up in the word list, failing with
      `IndexError` at the first id the list has no entry for. The skipped
      rows never reach the lookup, so the loop is the lookup of the
      selected rows. */
  function ResolveHits(words: seq<string>, hits: seq<Hit>, minDist: Option<real>, maxDist: Option<real>)
    : (r: Result<seq<Scored>>)
    ensures r.Ok? <==> forall h :: h in Selected(hits, minDist, maxDist) ==> PyIndex(words, h.1).Some?
    ensures r.Ok? ==> |r.value| == |Selected(hits, minDist, maxDist)|
    ensures r.Ok? ==> forall i :: 0 <= i < |r.value| ==>
      var h := Selected(hits, minDist, maxDist)[i];
      r.value[i] == (PyIndex(words, h.1).value, h.0)
    ensures r.Err? ==> r.error.kind == IndexError
  {
    LookupHits(words, Selected(hits, minDist, maxDist))
  }

  /** `words[idx]` for each row in order, with Python's negative indexing;
      `IndexError` if any id is out of the list's range. */
  function LookupHits(words: seq<string>, hs: seq<Hit>): (r: Result<seq<Scored>>)
    ensures r.Ok? <==> forall h :: h in hs ==> PyIndex(words, h.1).Some?
    ensures r.Ok? ==> |r.value| == |hs|
    ensures r.Ok? ==> forall i :: 0 <= i < |hs| ==> r.value[i] == (PyIndex(words, hs[i].1).value, hs[i].0)
    ensures r.Err? ==> r.error.kind == IndexError
  {
    if |hs| == 0 then Ok([])
    else
      match PyIndex(words, hs[0].1)
      case None => Err(Exception(IndexError, "list index out of range"))
      case Some(w) =>
        var rest := LookupHits(words, hs[1..]);
        assert forall h :: h in hs <==> h == hs[0] || h in hs[1..];
        if rest.Err? then rest
        else Ok([(w, hs[0].0)] + rest.value)
  }

  /** Every resolved entry is the word and distance of a selected row. */
  lemma ResolvedFromSelected(words: seq<string>, hits: seq<Hit>, minDist: Option<real>, maxDist: Option<real>)
    requires ResolveHits(words, hits, minDist, maxDist).Ok?
    ensures var found := ResolveHits(words, hits, minDist, maxDist).value;
      forall e :: e in found ==> exists h :: h in Selected(hits, minDist, maxDist) && PyIndex(words, h.1).Some? && e == (PyIndex(words, h.1).value, h.0)
  {
    var found := ResolveHits(words, hits, minDist, maxDist).value;
    var selected := Selected(hits, minDist, maxDist);
    forall e | e in found ensures exists h :: h in selected && PyIndex(words, h.1).Some? && e == (PyIndex(words, h.1).value, h.0) {
      var i :| 0 <= i < |found| && found[i] == e;
      assert selected[i] in selected;
    }
  }

  /** `get_similar_words(vector, k, min_distance, max_distance)`. With
      either bound it searches for all `len` entries, keeps the rows inside
      the inclusive bounds, ranks them by ascending distance (stably) and
      cuts to `k`; without bounds it is FAISS's answer for `k`, in FAISS's
      own order. Rows with id -1 are dropped on both paths. */
  function SimilarWords(s: Store, v: Vector, k: int, minDist: Option<real>, maxDist: Option<real>)
    : (r: Result<seq<Scored>>)
    ensures r.Err? ==> r.error.kind == IndexError
    ensures r.Ok? ==> forall i :: 0 <= i < |r.value| ==> InRange(r.value[i].1, minDist, maxDist)
    ensures minDist.Some? || maxDist.Some? ==>
      var found := ResolveHits(s.words, s.index.search(v, |s.words|), minDist, maxDist);
      && (r.Ok? <==> found.Ok?)
      && (r.Ok? ==> IsTopK(r.value, found.value, Score, k))
    ensures minDist.None? && maxDist.None? ==>
      var kept := Selected(s.index.search(v, k), None, None);
      && (r.Ok? <==> forall h :: h in kept ==> PyIndex(s.words, h.1).Some?)
      && (r.Ok? ==> |r.value| == |kept| && forall i :: 0 <= i < |kept| ==>
            r.value[i] == (PyIndex(s.words, kept[i].1).value, kept[i].0))
  {
    if minDist.Some? || maxDist.Some? then
      var hits := s.index.search(v, |s.words|);
      var found :- ResolveHits(s.words, hits, minDist, maxDist);
      var r := TopBy(found, Score, k);
      ResolvedInRange(s.words, hits, minDist, maxDist);
      Ok(r)
    else ResolveHits(s.words, s.index.search(v, k), None, None)
  }

  /** Every resolved entry carries a distance inside the bounds. */
  lemma ResolvedInRange(words: seq<string>, hits: seq<Hit>, minDist: Option<real>, maxDist: Option<real>)
    requires ResolveHits(words, hits, minDist, maxDist).Ok?
    ensures forall e :: e in ResolveHits(words, hits, minDist, maxDist).value ==> InRange(e.1, minDist, maxDist)
  {
    var found := ResolveHits(words, hits, minDist, maxDist).value;
    forall e | e in found ensures InRange(e.1, minDist, maxDist) {
      var i :| 0 <= i < |found| && found[i] == e;
    }
  }

  /** Without bounds, the answer keeps FAISS's order, drops only the id -1
      rows, and has at most `k` entries. */
  lemma UnfilteredKeepsSearchOrder(s: Store, v: Vector, k: int)
    requires SearchReturnsK(s.index) && k >= 0
    requires SimilarWords(s, v, k, None, None).Ok?
    ensures var r := SimilarWords(s, v, k, None, None).value;
      && |r| <= k
      && |r| == |Selected(s.index.search(v, k), None, None)|
      && forall i :: 0 <= i < |r| ==>
        r[i].1 == Selected(s.index.search(v, k), None, None)[i].0
  {
  }

  /** `get_all_word_vectors()`: every word with the vector at its position,
      failing at the first position past the index's vectors. */
  function AllEntries(s: Store): (r: Result<seq<(string, Vector)>>)
    ensures r.Ok? <==> |s.words| <= s.index.NTotal()
    ensures r.Ok? ==> |r.value| == |s.words|
    ensures r.Ok? ==> forall i :: 0 <= i < |r.value| ==> r.value[i] == (s.words[i], s.index.vectors[i])
  {
    EntriesFrom(s, 0)
  }

  function EntriesFrom(s: Store, i: nat): (r: Result<seq<(string, Vector)>>)
    requires i <= |s.words|
    ensures r.Ok? <==> |s.words| <= s.index.NTotal() || |s.words| == i
    ensures r.Ok? ==> |r.value| == |s.words| - i
    ensures r.Ok? ==> forall j :: 0 <= j < |r.value| ==> r.value[j] == (s.words[i + j], s.index.vectors[i + j])
    decreases |s.words| - i
  {
    if i == |s.words| then Ok([])
    else
      var v :- s.index.Reconstruct(i);
      var rest :- EntriesFrom(s, i + 1);
      Ok([(s.words[i], v)] + rest)
  }
}

=== FILE: handlers.dfy ===
/** The pure logic of the bot's command handlers: the `/similar` count
    argument, the filter that drops the query word, the discovery threshold,
    the mapping of a raised exception to a reply, and the four search
    commands end to end over the word database.

    A handler loads the database on its first database call; the reply it
    sends is a `Reply`, and a recorded discovery is the word the leaderboard
    would be credited with. */
module Handlers {
  import opened Outcomes
  import opened Lists
  import opened Text
  import opened Ranking
  import opened Vectors
  import opened Database
  import opened Alchemist
  import MixParser

  /** Largest result count `/similar` accepts. */
  const MaxCount := 20

  /** Result count used when the argument is missing, not an integer or
      below 1. */
  const DefaultCount := 5

  /** Scores strictly above this earn a discovery. */
  const DiscoveryThreshold := 0.8

  /** The replies a handler sends. `Crash` is an exception the handler itself
      raises while handling another one, which leaves it without a reply. */
  datatype Reply =
    | Found(results: seq<Scored>, discovery: Option<string>)
    | MissingArgs
    | WordNotFound(word: string)
    | InvalidInput
    | Crash(error: Exception)

  // ---------------------------------------------------------------------
  // /similar argument and result filter

  /** The result count of `/similar`, from its second argument; `parseInt`
      is Python's `int(str)` with `None` for a `ValueError`. */
  function ClampCount(args: seq<string>, parseInt: string -> Option<int>): (count: int)
    ensures 1 <= count <= MaxCount
    ensures (|args| < 2 || parseInt(args[1]).None?) ==> count == DefaultCount
    ensures |args| >= 2 && parseInt(args[1]).Some? ==>
      var n := parseInt(args[1]).value;
      && (1 <= n <= MaxCount ==> count == n)
      && (n > MaxCount ==> count == MaxCount)
      && (n < 1 ==> count == DefaultCount)
  {
    if |args| < 2 then DefaultCount
    else match parseInt(args[1])
      case None => DefaultCount
      case Some(n) => if n > MaxCount then MaxCount else if n < 1 then DefaultCount else n
  }

  /** The entries whose word is not the query word, ignoring case, in
      order. */
  function WithoutQuery(results: seq<Scored>, word: string, lower: string -> string): (r: seq<Scored>)
    ensures forall i :: 0 <= i < |r| ==> lower(r[i].0) != lower(word)
    ensures forall e :: e in results && lower(e.0) != lower(word) ==> e in r
    ensures Subsequence(r, results)
  {
    if |results| == 0 then []
    else
      var rest := WithoutQuery(results[1..], word, lower);
      if lower(results[0].0) == lower(word) then
        assert forall e :: e in results ==> e == results[0] || e in results[1..];
        assert |rest| > 0 ==> rest[0] != results[0];
        rest
      else [results[0]] + rest
  }

  /** The self-filter of `/similar`: the first `count` of the entries that
      are not the query word ignoring case, in the order of the search. */
  function DropQuery(results: seq<Scored>, word: string, lower: string -> string, count: int): (r: seq<Scored>)
    ensures var others := WithoutQuery(results, word, lower);
      && r <= others
      && (count >= 0 ==> |r| == if count < |others| then count else |others|)
    ensures forall i :: 0 <= i < |r| ==> lower(r[i].0) != lower(word)
    ensures Subsequence(r, results)
    ensures 0 <= |r| < count ==> forall e :: e in results && lower(e.0) != lower(word) ==> e in r
  {
    var kept := WithoutQuery(results, word, lower);
    var r := Take(kept, count);
    SubsequencePrefix(kept, results, |r|);
    r
  }

  // ---------------------------------------------------------------------
  // Discovery threshold

  /** `max(s for _, s in results)` */
  function MaxScore(results: seq<Scored>): (m: real)
    requires |results| > 0
    ensures forall i :: 0 <= i < |results| ==> results[i].1 <= m
    ensures exists i :: 0 <= i < |results| && results[i].1 == m
  {
    if |results| == 1 then results[0].1
    else
      var rest := MaxScore(results[1..]);
      assert forall i :: 1 <= i < |results| ==> results[i] == results[1..][i - 1];
      if results[0].1 >= rest then results[0].1 else rest
  }

  /** `check_similarity`: a non-empty answer whose best score is above the
      threshold credits `word`. */
  function Discovery(results: seq<Scored>, word: string): (d: Option<string>)
    ensures d.Some? <==> exists i :: 0 <= i < |results| && results[i].1 > DiscoveryThreshold
    ensures d.Some? ==> d.value == word
  {
    if |results| > 0 && MaxScore(results) > DiscoveryThreshold then Some(word) else None
  }

  // ---------------------------------------------------------------------
  // Exception classification

  /** The except clauses as written: `ValueError` and `IndexError` first,
      then a message containing "Слово" for the word between the first two
      apostrophes (an `IndexError` of its own when there is no apostrophe),
      then everything else. */
  function Classify(e: Exception): (r: Reply)
    ensures !r.Found?
    ensures r == MissingArgs <==> e.kind == ValueError || e.kind == IndexError
    ensures r.WordNotFound? <==>
      e.kind != ValueError && e.kind != IndexError && Contains(e.message, "Слово") && '\'' in e.message
    ensures r.WordNotFound? ==> SecondField(e.message, '\'') == Some(r.word)
    ensures r.Crash? <==>
      e.kind != ValueError && e.kind != IndexError && Contains(e.message, "Слово") && '\'' !in e.message
    ensures r.Crash? ==> r.error.kind == IndexError
    ensures r == InvalidInput <==> e.kind != ValueError && e.kind != IndexError && !Contains(e.message, "Слово")
  {
    if e.kind == ValueError || e.kind == IndexError then MissingArgs
    else FromMessage(e)
  }

  /** The second except clause: the reply read off the message. */
  function FromMessage(e: Exception): (r: Reply)
    ensures !r.Found? && !r.MissingArgs?
    ensures r.WordNotFound? <==> Contains(e.message, "Слово") && '\'' in e.message
    ensures r.WordNotFound? ==> SecondField(e.message, '\'') == Some(r.word)
    ensures r.Crash? <==> Contains(e.message, "Слово") && '\'' !in e.message
    ensures r.Crash? ==> r.error.kind == IndexError
    ensures r == InvalidInput <==> !Contains(e.message, "Слово")
  {
    if Contains(e.message, "Слово") then
      match SecondField(e.message, '\'')
      case None => Crash(Exception(IndexError, "list index out of range"))
      case Some(w) => WordNotFound(w)
    else InvalidInput
  }

  /** As written, the missing-word error of every alchemist operation is a
      `ValueError` and so is answered as missing arguments: the reply that
      names the missing word is never sent for it. */
  lemma MissingWordIsMisreported(w: string)
    ensures Classify(WordMissing(w)) == MissingArgs
  {
  }

  /** The classification as evidently intended: a message naming a missing
      word is recognised before the `ValueError` clause. */
  function ClassifyIntended(e: Exception): (r: Reply)
    ensures !r.Found?
    ensures !Contains(e.message, "Слово") ==> r == Classify(e)
    ensures Contains(e.message, "Слово") ==> r == FromMessage(e)
  {
    if Contains(e.message, "Слово") then FromMessage(e) else Classify(e)
  }

  /** A string without the first character of `sub` does not contain it. */
  lemma NotContainedWithoutFirst(s: string, sub: string)
    requires |sub| > 0 && sub[0] !in s
    ensures !Contains(s, sub)
  {
    forall i | 0 <= i <= |s| - |sub| ensures !OccursAt(s, sub, i) {
      assert s[i..i + |sub|][0] == s[i];
    }
  }

  /** The missing-word message mentions "Слово". */
  lemma MissingWordMentionsSlovo(w: string)
    ensures Contains(WordMissing(w).message, "Слово")
  {
    var msg := WordMissing(w).message;
    assert msg[..5] == "Слово";
    assert OccursAt(msg, "Слово", 0);
  }

  /** The missing-word message quotes the word between its first two
      apostrophes. */
  lemma MissingWordIsQuoted(w: string)
    requires '\'' !in w
    ensures SecondField(WordMissing(w).message, '\'') == Some(w)
  {
    var pre, post := "Слово ", " отсутствует в базе";
    assert WordMissing(w).message == pre + ['\''] + w + ['\''] + post;
    assert '\'' !in pre;
    SecondFieldOfQuoted(pre, w, post, '\'');
  }

  /** With the intended order the missing word is named back to the user. */
  lemma MissingWordIsReported(w: string)
    requires '\'' !in w
    ensures ClassifyIntended(WordMissing(w)) == WordNotFound(w)
  {
    MissingWordMentionsSlovo(w);
    MissingWordIsQuoted(w);
  }

  /** The intended reply for an optional missing word. */
  lemma MissingWordReply(missing: Option<string>)
    ensures missing.Some? && '\'' !in missing.value ==>
      ClassifyIntended(WordMissing(missing.value)) == WordNotFound(missing.value)
  {
    if missing.Some? && '\'' !in missing.value {
      MissingWordIsReported(missing.value);
    }
  }

  /** A `ValueError` whose message does not mention "Слово" is answered as
      missing arguments in either order of the except clauses. */
  lemma PlainValueErrorIsMissingArgs(e: Exception)
    requires e.kind == ValueError && 'С' !in e.message
    ensures Classify(e) == MissingArgs && ClassifyIntended(e) == MissingArgs
  {
    NotContainedWithoutFirst(e.message, "Слово");
  }

  /** Every error the `/mix` parser raises is answered as missing arguments,
      in either order of the except clauses. */
  lemma ParseErrorsAreMissingArgs(e: Exception)
    requires e == MixParser.OperatorWithoutWord() || e == MixParser.NoWords() || e == MixParser.OperatorCountMismatch()
    ensures Classify(e) == MissingArgs && ClassifyIntended(e) == MissingArgs
  {
    if e == MixParser.OperatorWithoutWord() {
      OperatorWithoutWordIsMissingArgs();
    } else if e == MixParser.NoWords() {
      NoWordsIsMissingArgs();
    } else {
      OperatorCountMismatchIsMissingArgs();
    }
  }

  lemma OperatorWithoutWordIsMissingArgs()
    ensures ClassifyIntended(MixParser.OperatorWithoutWord()) == MissingArgs
  {
    var m := MixParser.OperatorWithoutWord().message;
    assert m == "Оператор без предшествующего слова";
    assert forall i :: 0 <= i < |m| ==> m[i] != 'С';
    PlainValueErrorIsMissingArgs(MixParser.OperatorWithoutWord());
  }

  lemma NoWordsIsMissingArgs()
    ensures ClassifyIntended(MixParser.NoWords()) == MissingArgs
  {
    var m := MixParser.NoWords().message;
    assert m == "Не указаны слова для смешивания";
    assert forall i :: 0 <= i < |m| ==> m[i] != 'С';
    PlainValueErrorIsMissingArgs(MixParser.NoWords());
  }

  lemma OperatorCountMismatchIsMissingArgs()
    ensures ClassifyIntended(MixParser.OperatorCountMismatch()) == MissingArgs
  {
    var m := MixParser.OperatorCountMismatch().message;
    assert m == "Несоответствие количества слов и операторов";
    assert forall i :: 0 <= i < |m| ==> m[i] != 'С';
    PlainValueErrorIsMissingArgs(MixParser.OperatorCountMismatch());
  }

  // ---------------------------------------------------------------------
  // Commands

  /** Every index the handler may see has one vector dimension. */
  predicate DimensionsFixed(db: Db, disk: Disk) {
    && (db.index.Some? ==> FixedDimension(db.index.value))
    && (disk.readIndex(db.indexPath).Some? ==> FixedDimension(disk.readIndex(db.indexPath).value))
  }

  /** A load that succeeds yields a store of one dimension. */
  lemma LoadedDimensionFixed(db: Db, disk: Disk)
    requires DimensionsFixed(db, disk) && Load(db, disk).1.Ok?
    ensures FixedDimension(StoreOf(Load(db, disk).0).index)
  {
  }

  /** The store a successful load leaves behind. */
  function LoadedStore(db: Db, disk: Disk): (s: Store)
    requires DimensionsFixed(db, disk) && Load(db, disk).1.Ok?
    ensures s == StoreOf(Load(db, disk).0) && FixedDimension(s.index)
  {
    LoadedDimensionFixed(db, disk);
    StoreOf(Load(db, disk).0)
  }

  /** The reply to an alchemist answer: the results and the discovery they
      earn for `word`, or the exception classified by the except clauses as
      written. */
  function Answer(found: Result<seq<Scored>>, word: string): (r: Reply)
    ensures found.Ok? ==> r == Found(found.value, Discovery(found.value, word))
    ensures found.Err? ==> r == Classify(found.error)
  {
    match found
    case Ok(results) => Found(results, Discovery(results, word))
    case Err(e) => Classify(e)
  }

  function FirstWord(results: seq<Scored>): string {
    if |results| > 0 then results[0].0 else ""
  }

  /** A discovery, if any, credits the first (nearest) word of the
      results. */
  predicate CreditsNearest(r: Reply) {
    r.Found? && r.discovery.Some? ==> |r.results| > 0 && r.discovery.value == r.results[0].0
  }

  /** The reply when a discovery credits the nearest word found. */
  function AnswerNearest(found: Result<seq<Scored>>): (r: Reply)
    ensures found.Err? ==> r == Classify(found.error)
    ensures r.Found? <==> found.Ok?
    ensures r.Found? ==>
      && r.results == found.value
      && (r.discovery.Some? <==> exists i :: 0 <= i < |r.results| && r.results[i].1 > DiscoveryThreshold)
    ensures CreditsNearest(r)
  {
    Answer(found, if found.Ok? then FirstWord(found.value) else "")
  }

  /** Every alchemist missing-word error is a `ValueError`, so any answer
      that fails with one is sent as missing arguments. */
  lemma MissingWordAnswer(found: Result<seq<Scored>>, w: string)
    requires found == Err(WordMissing(w))
    ensures Answer(found, w) == MissingArgs && AnswerNearest(found) == MissingArgs
  {
  }

  /** `/similar word [count]`: the `count` nearest other words, asking the
      search for one more to make room for the query word itself. */
  function SimilarCommand(db: Db, disk: Disk, args: seq<string>, parseInt: string -> Option<int>, lower: string -> string)
    : (r: (Db, Reply))
    requires SplitTokens(args)
    ensures |args| == 0 ==> r == (db, MissingArgs)
    ensures |args| > 0 ==> r.0 == Load(db, disk).0
    ensures |args| > 0 && Load(db, disk).1.Err? ==> r.1 == Classify(Load(db, disk).1.error)
    ensures |args| > 0 && Load(db, disk).1.Ok? ==>
      r.1 == SimilarReply(StoreOf(Load(db, disk).0), args[0], ClampCount(args, parseInt), lower)
    ensures r.1.Found? ==>
      && |args| > 0 && |r.1.results| <= ClampCount(args, parseInt)
      && (forall i :: 0 <= i < |r.1.results| ==> lower(r.1.results[i].0) != lower(args[0]))
      && (r.1.discovery.Some? <==> exists i :: 0 <= i < |r.1.results| && r.1.results[i].1 > DiscoveryThreshold)
      && (r.1.discovery.Some? ==> r.1.discovery.value == args[0])
  {
    if |args| == 0 then (db, MissingArgs)
    else
      var word := Strip(args[0]);
      assert word == args[0];
      var count := ClampCount(args, parseInt);
      var (db', loaded) := Load(db, disk);
      if loaded.Err? then (db', Classify(loaded.error))
      else (db', SimilarReply(StoreOf(db'), word, count, lower))
  }

  /** The reply of `/similar` once the database is loaded: the search
      results with the query word dropped, or the classified error. */
  function SimilarReply(s: Store, word: string, count: int, lower: string -> string): (r: Reply)
    requires 1 <= count <= MaxCount
    ensures !WordExists(s, word) ==> r == MissingArgs
    ensures r.Found? ==>
      && |r.results| <= count
      && (forall i :: 0 <= i < |r.results| ==> lower(r.results[i].0) != lower(word))
      && (r.discovery.Some? <==> exists i :: 0 <= i < |r.results| && r.results[i].1 > DiscoveryThreshold)
      && (r.discovery.Some? ==> r.discovery.value == word)
    ensures WordExists(s, word) && |s.words| <= s.index.NTotal() ==>
      match SimilarWords(s, VectorOf(s, word).value, count + 1, None, None)
      case Ok(results) => r.Found? && r.results == DropQuery(results, word, lower, count)
      case Err(_) => r == MissingArgs
  {
    match FindSimilarWords(s, word, count + 1, None, None)
    case Err(e) => Classify(e)
    case Ok(results) =>
      var kept := DropQuery(results, word, lower, count);
      Found(kept, Discovery(kept, word))
  }

  /** As written, `/similar` with a word outside the vocabulary answers
      missing arguments, not "word not found". */
  lemma SimilarMisreportsMissingWord(db: Db, disk: Disk, args: seq<string>, parseInt: string -> Option<int>, lower: string -> string)
    requires SplitTokens(args) && |args| > 0
    requires Load(db, disk).1.Ok? && args[0] !in StoreOf(Load(db, disk).0).words
    ensures SimilarCommand(db, disk, args, parseInt, lower).1 == MissingArgs
  {
  }

  /** The reply of `/similar` with the except clauses in their intended
      order: the same results as written, but a missing query word is named
      back to the user. */
  function SimilarReplyIntended(s: Store, word: string, count: int, lower: string -> string): (r: Reply)
    requires 1 <= count <= MaxCount
    ensures !WordExists(s, word) && '\'' !in word ==> r == WordNotFound(word)
    ensures r.Found? <==> SimilarReply(s, word, count, lower).Found?
    ensures r.Found? ==> r == SimilarReply(s, word, count, lower)
  {
    match FindSimilarWords(s, word, count + 1, None, None)
    case Err(e) =>
      MissingWordReply(Some(word));
      ClassifyIntended(e)
    case Ok(results) =>
      var kept := DropQuery(results, word, lower, count);
      Found(kept, Discovery(kept, word))
  }

  /** `/analogy a b c`: exactly three arguments, then `word_analogy`; a
      discovery credits `c`. */
  function AnalogyCommand(db: Db, disk: Disk, norm: Vector -> real, args: seq<string>): (r: (Db, Reply))
    requires DimensionsFixed(db, disk)
    ensures |args| != 3 ==> r == (db, MissingArgs)
    ensures |args| == 3 ==> r.0 == Load(db, disk).0
    ensures |args| == 3 && Load(db, disk).1.Err? ==> r.1 == Classify(Load(db, disk).1.error)
    ensures |args| == 3 && Load(db, disk).1.Ok? ==>
      r.1 == AnalogyReply(StoreOf(Load(db, disk).0), norm, args[0], args[1], args[2])
    ensures r.1.Found? ==>
      && |args| == 3
      && (forall i :: 0 <= i < |r.1.results| ==> r.1.results[i].0 !in args)
      && (r.1.discovery.Some? ==> r.1.discovery.value == args[2])
  {
    if |args| != 3 then (db, MissingArgs)
    else
      var (db', loaded) := Load(db, disk);
      if loaded.Err? then (db', Classify(loaded.error))
      else
        LoadedDimensionFixed(db, disk);
        assert args == [args[0], args[1], args[2]];
        (db', AnalogyReply(StoreOf(db'), norm, args[0], args[1], args[2]))
  }

  /** The reply of `/analogy` once the database is loaded. */
  function AnalogyReply(s: Store, norm: Vector -> real, a: string, b: string, c: string): (r: Reply)
    requires FixedDimension(s.index)
    ensures FirstMissing(s, [a, b, c]).Some? ==> r == MissingArgs
    ensures FirstMissing(s, [a, b, c]).None? && |s.words| <= s.index.NTotal() ==> r.Found?
    ensures r.Found? ==>
      && (forall i :: 0 <= i < |r.results| ==> r.results[i].0 !in [a, b, c])
      && (r.discovery.Some? <==> exists i :: 0 <= i < |r.results| && r.results[i].1 > DiscoveryThreshold)
      && (r.discovery.Some? ==> r.discovery.value == c)
      && RanksAnalogy(s, norm, a, b, c, 5, r.results)
  {
    Answer(WordAnalogy(s, norm, a, b, c, 5), c)
  }

  /** `/between a b`: exactly two arguments, then `closest_to_line`; a
      discovery credits the nearest word found. */
  function BetweenCommand(db: Db, disk: Disk, norm: Vector -> real, args: seq<string>): (r: (Db, Reply))
    requires DimensionsFixed(db, disk)
    ensures |args| != 2 ==> r == (db, MissingArgs)
    ensures |args| == 2 ==> r.0 == Load(db, disk).0
    ensures |args| == 2 && Load(db, disk).1.Err? ==> r.1 == Classify(Load(db, disk).1.error)
    ensures |args| == 2 && Load(db, disk).1.Ok? ==>
      r.1 == BetweenReply(StoreOf(Load(db, disk).0), norm, args[0], args[1])
    ensures r.1.Found? ==>
      && |args| == 2
      && (forall i :: 0 <= i < |r.1.results| ==> r.1.results[i].0 !in args)
      && CreditsNearest(r.1)
  {
    if |args| != 2 then (db, MissingArgs)
    else
      var (db', loaded) := Load(db, disk);
      if loaded.Err? then (db', Classify(loaded.error))
      else
        LoadedDimensionFixed(db, disk);
        assert args == [args[0], args[1]];
        (db', BetweenReply(StoreOf(db'), norm, args[0], args[1]))
  }

  /** The reply of `/between` once the database is loaded. */
  function BetweenReply(s: Store, norm: Vector -> real, a: string, b: string): (r: Reply)
    requires FixedDimension(s.index)
    ensures !WordExists(s, a) || !WordExists(s, b) ==> r == MissingArgs
    ensures WordExists(s, a) && WordExists(s, b) && |s.words| <= s.index.NTotal() ==> r.Found?
    ensures r.Found? ==>
      && (forall i :: 0 <= i < |r.results| ==> r.results[i].0 !in [a, b])
      && RanksLine(s, norm, a, b, 5, r.results)
      && (r.discovery.Some? <==> exists i :: 0 <= i < |r.results| && r.results[i].1 > DiscoveryThreshold)
      && CreditsNearest(r)
  {
    AnswerNearest(ClosestToLine(s, norm, a, b, 5))
  }

  /** What the `/mix` parser guarantees the rest of the handler: a parsed
      expression passes the argument checks of `semantic_mix`, and a failure
      is one of the parser's own errors. */
  predicate ParseOutcome(parsed: Result<MixParser.MixExpression>) {
    match parsed
    case Ok(e) => CheckMixArguments(e.words, Some(e.operators), Some(e.multipliers)).None?
    case Err(e) => e == MixParser.OperatorWithoutWord() || e == MixParser.NoWords() || e == MixParser.OperatorCountMismatch()
  }

  lemma ParsedMixPassesChecks(parseFloat: string -> Option<real>, parts: seq<string>)
    ensures ParseOutcome(MixParser.MixReference(parseFloat, parts))
  {
  }

  /** The expression a successful parse yields. */
  function ParsedMix(parseFloat: string -> Option<real>, parts: seq<string>): (e: MixParser.MixExpression)
    requires MixParser.MixReference(parseFloat, parts).Ok?
    ensures e == MixParser.MixReference(parseFloat, parts).value
    ensures CheckMixArguments(e.words, Some(e.operators), Some(e.multipliers)).None?
  {
    ParsedMixPassesChecks(parseFloat, parts);
    MixParser.MixReference(parseFloat, parts).value
  }

  /** `/mix expression`: parse the tokens after the command, then
      `semantic_mix`; a discovery credits the nearest word found. Every
      parse error is answered as missing arguments. */
  function MixCommand(
    db: Db, disk: Disk, norm: Vector -> real, lower: string -> string,
    parseFloat: string -> Option<real>, parts: seq<string>)
    : (r: (Db, Reply))
    requires DimensionsFixed(db, disk)
    ensures MixParser.MixReference(parseFloat, parts).Err? ==> r == (db, MissingArgs)
    ensures MixParser.MixReference(parseFloat, parts).Ok? ==> r.0 == Load(db, disk).0
    ensures MixParser.MixReference(parseFloat, parts).Ok? && Load(db, disk).1.Err? ==>
      r.1 == Classify(Load(db, disk).1.error)
    ensures MixParser.MixReference(parseFloat, parts).Ok? && Load(db, disk).1.Ok? ==>
      var expr := ParsedMix(parseFloat, parts);
      r.1 == MixReply(LoadedStore(db, disk), norm, lower, expr.words, expr.operators, expr.multipliers)
    ensures CreditsNearest(r.1)
  {
    var parsed := MixParser.MixReference(parseFloat, parts);
    ParsedMixPassesChecks(parseFloat, parts);
    match parsed
    case Err(e) =>
      ParseErrorsAreMissingArgs(e);
      (db, Classify(e))
    case Ok(expr) => MixLoaded(db, disk, norm, lower, expr)
  }

  /** The `/mix` handler once the expression is parsed: load the database,
      then mix. */
  function MixLoaded(db: Db, disk: Disk, norm: Vector -> real, lower: string -> string,
                     expr: MixParser.MixExpression): (r: (Db, Reply))
    requires DimensionsFixed(db, disk)
    requires CheckMixArguments(expr.words, Some(expr.operators), Some(expr.multipliers)).None?
    ensures r.0 == Load(db, disk).0
    ensures Load(db, disk).1.Err? ==> r.1 == Classify(Load(db, disk).1.error)
    ensures Load(db, disk).1.Ok? ==>
      r.1 == MixReply(StoreOf(Load(db, disk).0), norm, lower, expr.words, expr.operators, expr.multipliers)
    ensures CreditsNearest(r.1)
  {
    var (db', loaded) := Load(db, disk);
    if loaded.Err? then (db', Classify(loaded.error))
    else
      LoadedDimensionFixed(db, disk);
      (db', MixReply(StoreOf(db'), norm, lower, expr.words, expr.operators, expr.multipliers))
  }

  /** The reply of `/mix` once the expression is parsed and the database
      loaded. */
  function MixReply(s: Store, norm: Vector -> real, lower: string -> string,
                    words: seq<string>, operators: seq<string>, multipliers: seq<real>): (r: Reply)
    requires FixedDimension(s.index)
    requires CheckMixArguments(words, Some(operators), Some(multipliers)).None?
    ensures |s.words| <= s.index.NTotal() && FirstMissing(s, Lowered(lower, words)).Some? ==> r == MissingArgs
    ensures var mixed := SemanticMix(s, norm, lower, words, Some(operators), Some(multipliers), 5);
      && (r.Found? <==> mixed.Ok?)
      && (mixed.Err? ==> r == Classify(mixed.error))
      && (r.Found? ==> r.results == mixed.value)
    ensures r.Found? ==> (r.discovery.Some? <==> exists i :: 0 <= i < |r.results| && r.results[i].1 > DiscoveryThreshold)
    ensures CreditsNearest(r)
  {
    AnswerNearest(SemanticMix(s, norm, lower, words, Some(operators), Some(multipliers), 5))
  }
}

=== FILE: lists.dfy ===
/** Python list operations the modelled code uses: `list.index(x)`,
    subscripting with a possibly negative index, and the order-keeping
    filters of list comprehensions. */
module Lists {
  import opened Outcomes

  /** Python's `s.index(x)`: the position of the first occurrence of `x`,
      `None` where Python raises `ValueError`. */
  function FirstIndex<T(==)>(s: seq<T>, x: T): (r: Option<nat>)
    ensures r.None? <==> x !in s
    ensures r.Some? ==> r.value < |s| && s[r.value] == x && x !in s[..r.value]
    ensures r.Some? ==> forall j :: 0 <= j < r.value ==> s[j] != x
  {
    if |s| == 0 then None
    else if s[0] == x then Some(0)
    else match FirstIndex(s[1..], x)
      case None => None
      case Some(i) => assert s[..i + 1] == [s[0]] + s[1..][..i]; Some(i + 1)
  }

  /** Python's `s[i]`: a negative `i` counts from the end; `None` where
      Python raises `IndexError`. */
  function PyIndex<T>(s: seq<T>, i: int): (r: Option<T>)
    ensures r.Some? <==> -|s| <= i < |s|
    ensures r.Some? && i >= 0 ==> r.value == s[i]
    ensures r.Some? && i < 0 ==> r.value == s[|s| + i]
  {
    if 0 <= i < |s| then Some(s[i])
    else if -|s| <= i < 0 then Some(s[|s| + i])
    else None
  }

  /** `a` is `b` with some entries removed, order kept. */
  predicate Subsequence<T(==)>(a: seq<T>, b: seq<T>)
    decreases |b|
  {
    if |a| == 0 then true
    else if |b| == 0 then false
    else if a[0] == b[0] then Subsequence(a[1..], b[1..])
    else Subsequence(a, b[1..])
  }

  /** Growing a prefix by one element. */
  lemma PrefixGrows<T>(s: seq<T>, i: nat)
    requires i < |s|
    ensures s[..i + 1] == s[..i] + [s[i]]
  {
  }

  lemma {:induction false} SubsequenceMembers<T>(a: seq<T>, b: seq<T>)
    requires Subsequence(a, b)
    ensures forall x :: x in a ==> x in b
    decreases |b|
  {
    if |a| > 0 {
      if a[0] == b[0] {
        SubsequenceMembers(a[1..], b[1..]);
        assert forall x :: x in a ==> x == a[0] || x in a[1..];
      } else {
        SubsequenceMembers(a, b[1..]);
      }
    }
  }

  /** Dropping entries from the end keeps a subsequence. */
  lemma {:induction false} SubsequencePrefix<T>(a: seq<T>, b: seq<T>, n: nat)
    requires Subsequence(a, b) && n <= |a|
    ensures Subsequence(a[..n], b)
    decreases |b|
  {
    if n > 0 {
      if a[0] == b[0] {
        SubsequencePrefix(a[1..], b[1..], n - 1);
        assert a[..n][1..] == a[1..][..n - 1];
      } else {
        SubsequencePrefix(a, b[1..], n);
      }
    }
  }

  /** Appending to the longer list keeps a subsequence, and so does
      appending the same entry to both. */
  lemma {:induction false} SubsequenceAppend<T>(a: seq<T>, b: seq<T>, x: T)
    requires Subsequence(a, b)
    ensures Subsequence(a, b + [x]) && Subsequence(a + [x], b + [x])
    decreases |b|
  {
    if |b| > 0 {
      assert (b + [x])[1..] == b[1..] + [x];
      if |a| == 0 {
        SubsequenceAppend(a, b[1..], x);
      } else {
        assert (a + [x])[1..] == a[1..] + [x];
        if a[0] == b[0] {
          SubsequenceAppend(a[1..], b[1..], x);
        } else {
          SubsequenceAppend(a, b[1..], x);
        }
      }
    }
  }
}

=== FILE: mixparser.dfy ===
/** The `/mix` expression parser of the bot: the argument text, already
    split on whitespace, becomes words, operators and multipliers for
    `semantic_mix`.

    The parser is a token loop. Its independent description is by segments:
    the operator tokens `+` and `-` cut the token list into segments; each
    segment must hold at least one word token (a token that is not a
    number); its words joined by single spaces form the mixed word, and its
    last number (1.0 when it has none) is that word's multiplier.

    `parseFloat` stands for Python's `float(str)`: `None` where Python
    raises `ValueError`. */
module MixParser {
  import opened Outcomes
  import opened Lists
  import opened Text

  datatype MixExpression = MixExpression(words: seq<string>, operators: seq<string>, multipliers: seq<real>)

  predicate IsOperator(t: string) {
    t == "+" || t == "-"
  }

  function OperatorWithoutWord(): Exception {
    Exception(ValueError, "Оператор без предшествующего слова")
  }

  function NoWords(): Exception {
    Exception(ValueError, "Не указаны слова для смешивания")
  }

  function OperatorCountMismatch(): Exception {
    Exception(ValueError, "Несоответствие количества слов и операторов")
  }

  /** The operator tokens, in order. */
  function Operators(ts: seq<string>): (r: seq<string>)
    ensures forall i :: 0 <= i < |r| ==> IsOperator(r[i])
  {
    if |ts| == 0 then []
    else Operators(ts[..|ts| - 1]) + (if IsOperator(ts[|ts| - 1]) then [ts[|ts| - 1]] else [])
  }

  /** Every prefix of a whitespace split is a whitespace split. */
  lemma TokensPrefix(ts: seq<string>, n: nat)
    requires SplitTokens(ts) && n <= |ts|
    ensures SplitTokens(ts[..n])
  {
    var p := ts[..n];
    forall m | 0 <= m < |p| ensures p[m] != "" && NoSpace(p[m]) {
      assert p[m] == ts[m];
    }
  }

  /** The tokens between operators: one more segment than operators. */
  function Segments(ts: seq<string>): (r: seq<seq<string>>)
    ensures |r| == |Operators(ts)| + 1
    ensures SplitTokens(ts) ==> forall j :: 0 <= j < |r| ==> SplitTokens(r[j])
  {
    if |ts| == 0 then [[]]
    else
      var segs := Segments(ts[..|ts| - 1]);
      var t := ts[|ts| - 1];
      if IsOperator(t) then segs + [[]]
      else
        var r := segs[..|segs| - 1] + [segs[|segs| - 1] + [t]];
        assert SplitTokens(ts) ==> forall j :: 0 <= j < |r| ==> SplitTokens(r[j]) by {
          if SplitTokens(ts) {
            TokensPrefix(ts, |ts| - 1);
            forall j | 0 <= j < |r| ensures SplitTokens(r[j]) {
              if j < |r| - 1 {
                assert r[j] == segs[j];
              }
            }
          }
        }
        r
  }

  /** An operator closes the current segment and opens an empty one. */
  lemma OperatorStep(ts: seq<string>, t: string)
    requires IsOperator(t)
    ensures var segs, segs' := Segments(ts), Segments(ts + [t]);
      |segs'| == |segs| + 1 && segs'[..|segs|] == segs && segs'[|segs|] == []
    ensures Operators(ts + [t]) == Operators(ts) + [t]
  {
    assert (ts + [t])[..|ts|] == ts;
  }

  /** Any other token joins the current segment. */
  lemma TokenStep(ts: seq<string>, t: string)
    requires !IsOperator(t)
    ensures var segs, segs' := Segments(ts), Segments(ts + [t]);
      |segs'| == |segs| && segs'[..|segs| - 1] == segs[..|segs| - 1]
      && segs'[|segs| - 1] == segs[|segs| - 1] + [t]
    ensures Operators(ts + [t]) == Operators(ts)
  {
    assert (ts + [t])[..|ts|] == ts;
  }

  predicate IsNumber(parseFloat: string -> Option<real>, t: string) {
    parseFloat(t).Some?
  }

  /** The word tokens of a segment, in order. */
  function WordTokens(parseFloat: string -> Option<real>, seg: seq<string>): (r: seq<string>)
    ensures |r| <= |seg| && Subsequence(r, seg)
    ensures SplitTokens(seg) ==> SplitTokens(r)
    ensures forall i :: 0 <= i < |r| ==> !IsNumber(parseFloat, r[i])
    ensures forall t :: t in seg && !IsNumber(parseFloat, t) ==> t in r
  {
    if |seg| == 0 then []
    else
      var init := WordTokens(parseFloat, seg[..|seg| - 1]);
      var t := seg[|seg| - 1];
      assert seg == seg[..|seg| - 1] + [t];
      SubsequenceAppend(init, seg[..|seg| - 1], t);
      if IsNumber(parseFloat, t) then init
      else
        assert SplitTokens(seg) ==> SplitTokens(seg[..|seg| - 1]) by {
          if SplitTokens(seg) {
            TokensPrefix(seg, |seg| - 1);
          }
        }
        init + [t]
  }

  predicate HasWord(parseFloat: string -> Option<real>, seg: seq<string>) {
    WordTokens(parseFloat, seg) != []
  }

  predicate AllHaveWords(parseFloat: string -> Option<real>, segs: seq<seq<string>>) {
    forall j :: 0 <= j < |segs| ==> HasWord(parseFloat, segs[j])
  }

  /** The last number of a segment; 1.0 when it has none. */
  function Multiplier(parseFloat: string -> Option<real>, seg: seq<string>): real
  {
    if |seg| == 0 then 1.0
    else match parseFloat(seg[|seg| - 1])
      case Some(x) => x
      case None => Multiplier(parseFloat, seg[..|seg| - 1])
  }

  /** A segment without numbers has multiplier 1.0. */
  lemma {:induction false} MultiplierDefault(parseFloat: string -> Option<real>, seg: seq<string>)
    requires forall i :: 0 <= i < |seg| ==> !IsNumber(parseFloat, seg[i])
    ensures Multiplier(parseFloat, seg) == 1.0
  {
    if |seg| > 0 {
      var init := seg[..|seg| - 1];
      assert forall i :: 0 <= i < |init| ==> init[i] == seg[i];
      MultiplierDefault(parseFloat, init);
    }
  }

  /** The multiplier is the value of the last number: an earlier number is
      overridden by a later one. */
  lemma {:induction false} MultiplierIsLastNumber(parseFloat: string -> Option<real>, seg: seq<string>, i: nat)
    requires i < |seg| && IsNumber(parseFloat, seg[i])
    requires forall j :: i < j < |seg| ==> !IsNumber(parseFloat, seg[j])
    ensures Multiplier(parseFloat, seg) == parseFloat(seg[i]).value
  {
    if i < |seg| - 1 {
      var init := seg[..|seg| - 1];
      assert forall j :: 0 <= j < |init| ==> init[j] == seg[j];
      MultiplierIsLastNumber(parseFloat, init, i);
    }
  }

  /** Appending a token to a segment. */
  lemma SegmentSnoc(parseFloat: string -> Option<real>, seg: seq<string>, t: string)
    ensures WordTokens(parseFloat, seg + [t])
      == WordTokens(parseFloat, seg) + (if IsNumber(parseFloat, t) then [] else [t])
    ensures Multiplier(parseFloat, seg + [t])
      == if IsNumber(parseFloat, t) then parseFloat(t).value else Multiplier(parseFloat, seg)
  {
    assert (seg + [t])[..|seg|] == seg;
  }

  lemma AccumulatedSnoc(ts: seq<string>, t: string)
    ensures Accumulated(ts + [t]) == Accumulated(ts) + t + " "
  {
    assert (ts + [t])[..|ts|] == ts;
  }

  /** The operator loop fails on an operator whose segment before it has no
      word, unless that operator is the very first token. */
  predicate LoopFails(parseFloat: string -> Option<real>, segs: seq<seq<string>>) {
    exists j :: 0 <= j < |segs| - 1 && !HasWord(parseFloat, segs[j]) && !(j == 0 && segs[0] == [])
  }

  /** Only the closed segments decide whether the loop fails. */
  lemma LoopFailsOnClosed(parseFloat: string -> Option<real>, a: seq<seq<string>>, b: seq<seq<string>>)
    requires |a| == |b| > 0 && a[..|a| - 1] == b[..|b| - 1]
    ensures LoopFails(parseFloat, a) == LoopFails(parseFloat, b)
  {
    assert forall j :: 0 <= j < |a| - 1 ==> a[j] == a[..|a| - 1][j] && b[j] == b[..|b| - 1][j];
  }

  /** Closing a segment that has a word, or the empty leading segment,
      keeps the loop going. */
  lemma LoopContinues(parseFloat: string -> Option<real>, segs: seq<seq<string>>)
    requires |segs| > 0 && !LoopFails(parseFloat, segs)
    requires HasWord(parseFloat, segs[|segs| - 1]) || segs == [[]]
    ensures !LoopFails(parseFloat, segs + [[]])
  {
    var a := segs + [[]];
    assert forall j :: 0 <= j < |segs| ==> a[j] == segs[j];
  }

  /** A failing loop met a segment without a word. */
  lemma FailingSegmentHasNoWord(parseFloat: string -> Option<real>, segs: seq<seq<string>>)
    requires LoopFails(parseFloat, segs)
    ensures exists j :: 0 <= j < |segs| && !HasWord(parseFloat, segs[j])
    ensures !AllHaveWords(parseFloat, segs)
  {
    var j :| 0 <= j < |segs| - 1 && !HasWord(parseFloat, segs[j]) && !(j == 0 && segs[0] == []);
    assert 0 <= j < |segs| && !HasWord(parseFloat, segs[j]);
    FailingSegmentIsWordless(parseFloat, segs, j);
  }

  lemma FailingSegmentIsWordless(parseFloat: string -> Option<real>, segs: seq<seq<string>>, j: nat)
    requires j < |segs| && !HasWord(parseFloat, segs[j])
    ensures !AllHaveWords(parseFloat, segs)
  {
  }

  /** The expression described by segments. */
  function MixReference(parseFloat: string -> Option<real>, ts: seq<string>): (r: Result<MixExpression>)
    ensures r.Ok? <==> AllHaveWords(parseFloat, Segments(ts))
    ensures r.Ok? ==> (|r.value.words| > 0 && |r.value.multipliers| == |r.value.words|
      && |r.value.operators| == |r.value.words| - 1)
    ensures r.Ok? ==> r.value.operators == Operators(ts)
    ensures r.Err? ==> r.error == OperatorWithoutWord() || r.error == NoWords() || r.error == OperatorCountMismatch()
  {
    var segs := Segments(ts);
    if LoopFails(parseFloat, segs) then
      FailingSegmentHasNoWord(parseFloat, segs);
      Err(OperatorWithoutWord())
    else if forall j :: 0 <= j < |segs| ==> !HasWord(parseFloat, segs[j]) then
      FailingSegmentIsWordless(parseFloat, segs, 0);
      Err(NoWords())
    else if !AllHaveWords(parseFloat, segs) then Err(OperatorCountMismatch())
    else
      Ok(MixExpression(SegmentWords(parseFloat, segs), Operators(ts), SegmentMultipliers(parseFloat, segs)))
  }

  /** The word of each segment: its word tokens joined by spaces. */
  function SegmentWords(parseFloat: string -> Option<real>, segs: seq<seq<string>>): (r: seq<string>)
    ensures |r| == |segs| && forall j :: 0 <= j < |segs| ==> r[j] == Join(WordTokens(parseFloat, segs[j]))
  {
    seq(|segs|, j requires 0 <= j < |segs| => Join(WordTokens(parseFloat, segs[j])))
  }

  /** The multiplier of each segment. */
  function SegmentMultipliers(parseFloat: string -> Option<real>, segs: seq<seq<string>>): (r: seq<real>)
    ensures |r| == |segs| && forall j :: 0 <= j < |segs| ==> r[j] == Multiplier(parseFloat, segs[j])
  {
    seq(|segs|, j requires 0 <= j < |segs| => Multiplier(parseFloat, segs[j]))
  }

  /** The words of the segments that have one, as the loop collects them. */
  function WordsOf(parseFloat: string -> Option<real>, segs: seq<seq<string>>): (r: seq<string>)
    ensures |r| <= |segs|
  {
    if |segs| == 0 then []
    else
      var last := segs[|segs| - 1];
      WordsOf(parseFloat, segs[..|segs| - 1])
        + (if HasWord(parseFloat, last) then [Join(WordTokens(parseFloat, last))] else [])
  }

  /** The multipliers of the segments that have a word. */
  function MultipliersOf(parseFloat: string -> Option<real>, segs: seq<seq<string>>): (r: seq<real>)
    ensures |r| == |WordsOf(parseFloat, segs)|
  {
    if |segs| == 0 then []
    else
      var last := segs[|segs| - 1];
      MultipliersOf(parseFloat, segs[..|segs| - 1])
        + (if HasWord(parseFloat, last) then [Multiplier(parseFloat, last)] else [])
  }

  lemma CollectSnoc(parseFloat: string -> Option<real>, segs: seq<seq<string>>, seg: seq<string>)
    ensures WordsOf(parseFloat, segs + [seg])
      == WordsOf(parseFloat, segs) + (if HasWord(parseFloat, seg) then [Join(WordTokens(parseFloat, seg))] else [])
    ensures MultipliersOf(parseFloat, segs + [seg])
      == MultipliersOf(parseFloat, segs) + (if HasWord(parseFloat, seg) then [Multiplier(parseFloat, seg)] else [])
  {
    assert (segs + [seg])[..|segs|] == segs;
  }

  /** Collected words: one per segment exactly when every segment has a
      word. */
  lemma {:induction false} WordsOfCount(parseFloat: string -> Option<real>, segs: seq<seq<string>>)
    ensures |WordsOf(parseFloat, segs)| == |segs| <==> AllHaveWords(parseFloat, segs)
  {
    if |segs| > 0 {
      var init, last := segs[..|segs| - 1], segs[|segs| - 1];
      WordsOfCount(parseFloat, init);
      assert |WordsOf(parseFloat, segs)| == |WordsOf(parseFloat, init)| + (if HasWord(parseFloat, last) then 1 else 0);
      assert forall j :: 0 <= j < |init| ==> init[j] == segs[j];
      assert AllHaveWords(parseFloat, segs) <==> AllHaveWords(parseFloat, init) && HasWord(parseFloat, last);
    }
  }

  /** Collected words: none exactly when no segment has a word. */
  lemma {:induction false} NoWordsOfCount(parseFloat: string -> Option<real>, segs: seq<seq<string>>)
    ensures |WordsOf(parseFloat, segs)| == 0 <==> forall j :: 0 <= j < |segs| ==> !HasWord(parseFloat, segs[j])
  {
    if |segs| > 0 {
      var init, last := segs[..|segs| - 1], segs[|segs| - 1];
      NoWordsOfCount(parseFloat, init);
      assert |WordsOf(parseFloat, segs)| == |WordsOf(parseFloat, init)| + (if HasWord(parseFloat, last) then 1 else 0);
      assert forall j :: 0 <= j < |init| ==> init[j] == segs[j];
      if HasWord(parseFloat, last) {
        assert HasWord(parseFloat, segs[|segs| - 1]);
      }
    }
  }

  /** When every segment has a word the collected words are the per-segment
      words. */
  lemma {:induction false} AllWordsCollected(parseFloat: string -> Option<real>, segs: seq<seq<string>>)
    requires AllHaveWords(parseFloat, segs)
    ensures |WordsOf(parseFloat, segs)| == |segs|
    ensures forall j :: 0 <= j < |segs| ==> WordsOf(parseFloat, segs)[j] == Join(WordTokens(parseFloat, segs[j]))
  {
    if |segs| > 0 {
      var init := segs[..|segs| - 1];
      assert forall j :: 0 <= j < |init| ==> init[j] == segs[j];
      AllWordsCollected(parseFloat, init);
      var w0 := WordsOf(parseFloat, init);
      var w := WordsOf(parseFloat, segs);
      assert w == w0 + [Join(WordTokens(parseFloat, segs[|segs| - 1]))];
      forall j | 0 <= j < |segs| ensures w[j] == Join(WordTokens(parseFloat, segs[j])) {
        if j < |init| {
          assert w[j] == w0[j];
        }
      }
    }
  }

  /** When every segment has a word the collected multipliers are the
      per-segment multipliers. */
  lemma {:induction false} AllMultipliersCollected(parseFloat: string -> Option<real>, segs: seq<seq<string>>)
    requires AllHaveWords(parseFloat, segs)
    ensures |MultipliersOf(parseFloat, segs)| == |segs|
    ensures forall j :: 0 <= j < |segs| ==> MultipliersOf(parseFloat, segs)[j] == Multiplier(parseFloat, segs[j])
  {
    if |segs| > 0 {
      var init := segs[..|segs| - 1];
      assert forall j :: 0 <= j < |init| ==> init[j] == segs[j];
      AllMultipliersCollected(parseFloat, init);
      var m0 := MultipliersOf(parseFloat, init);
      var m := MultipliersOf(parseFloat, segs);
      assert m == m0 + [Multiplier(parseFloat, segs[|segs| - 1])];
      forall j | 0 <= j < |segs| ensures m[j] == Multiplier(parseFloat, segs[j]) {
        if j < |init| {
          assert m[j] == m0[j];
        }
      }
    }
  }

  /** Segments already closed by an operator stay as they are when tokens
      are appended. */
  lemma {:induction false} ClosedSegmentsPersist(ts: seq<string>, i: nat)
    requires i <= |ts|
    ensures |Segments(ts[..i])| <= |Segments(ts)|
    ensures forall j :: 0 <= j < |Segments(ts[..i])| - 1 ==> Segments(ts)[j] == Segments(ts[..i])[j]
    decreases |ts|
  {
    if i < |ts| {
      var init := ts[..|ts| - 1];
      assert init[..i] == ts[..i];
      ClosedSegmentsPersist(init, i);
    } else {
      assert ts[..i] == ts;
    }
  }

  /** Without an operator the only segment is the whole token list. */
  lemma {:induction false} SingleSegment(ts: seq<string>)
    requires |Segments(ts)| == 1
    ensures Segments(ts)[0] == ts
  {
    if |ts| > 0 {
      var init, t := ts[..|ts| - 1], ts[|ts| - 1];
      assert |Operators(ts)| == |Operators(init)| + (if IsOperator(t) then 1 else 0);
      assert !IsOperator(t) && |Segments(init)| == 1;
      SingleSegment(init);
      assert Segments(ts)[0] == init + [t] == ts;
    }
  }

  /** An operator after a segment without a word, other than as the first
      token, makes the whole expression fail in the loop. */
  lemma FailureIsFinal(parseFloat: string -> Option<real>, parts: seq<string>, i: nat)
    requires i < |parts| && IsOperator(parts[i]) && i > 0
    requires !HasWord(parseFloat, Segments(parts[..i])[|Segments(parts[..i])| - 1])
    ensures LoopFails(parseFloat, Segments(parts))
  {
    var p, q := parts[..i], parts[..i + 1];
    var segs := Segments(p);
    var n := |segs|;
    assert q == p + [parts[i]];
    OperatorStep(p, parts[i]);
    var closed := Segments(q);
    assert closed[n - 1] == closed[..n][n - 1] == segs[n - 1];
    ClosedSegmentsPersist(parts, i + 1);
    var all := Segments(parts);
    assert all[n - 1] == closed[n - 1];
    if n == 1 {
      SingleSegment(p);
      assert all[0] == p != [];
    }
    WordlessSegmentFails(parseFloat, all, n - 1);
  }

  /** A closed segment without a word, other than the empty leading one,
      fails the loop. */
  lemma WordlessSegmentFails(parseFloat: string -> Option<real>, segs: seq<seq<string>>, j: nat)
    requires j < |segs| - 1 && !HasWord(parseFloat, segs[j]) && !(j == 0 && segs[0] == [])
    ensures LoopFails(parseFloat, segs)
  {
  }

  /** What the loop state holds after the tokens `p`: the operators seen,
      the words and multipliers of the closed segments that have a word,
      the current segment's accumulated word and multiplier, and no failure
      so far. */
  predicate Scanned(
    parseFloat: string -> Option<real>, p: seq<string>,
    words: seq<string>, operators: seq<string>, multipliers: seq<real>,
    currentWord: string, currentMultiplier: real)
  {
    var segs := Segments(p);
    var current := segs[|segs| - 1];
    && operators == Operators(p)
    && currentWord == Accumulated(WordTokens(parseFloat, current))
    && currentMultiplier == Multiplier(parseFloat, current)
    && words == WordsOf(parseFloat, segs[..|segs| - 1])
    && multipliers == MultipliersOf(parseFloat, segs[..|segs| - 1])
    && !LoopFails(parseFloat, segs)
  }

  /** The loop's operator branch keeps the state description. */
  lemma OperatorKeeps(
    parseFloat: string -> Option<real>, p: seq<string>, t: string,
    words: seq<string>, operators: seq<string>, multipliers: seq<real>,
    currentWord: string, currentMultiplier: real)
    requires SplitTokens(p) && IsOperator(t)
    requires Scanned(parseFloat, p, words, operators, multipliers, currentWord, currentMultiplier)
    requires Strip(currentWord) != "" || p == []
    ensures Strip(currentWord) != "" ==> Scanned(parseFloat, p + [t],
      words + [Strip(currentWord)], operators + [t], multipliers + [currentMultiplier], "", 1.0)
    ensures Strip(currentWord) == "" ==> Scanned(parseFloat, p + [t], words, operators + [t], multipliers, "", 1.0)
  {
    var segs := Segments(p);
    var current := segs[|segs| - 1];
    StripAccumulated(WordTokens(parseFloat, current));
    OperatorStep(p, t);
    assert segs == segs[..|segs| - 1] + [current];
    CollectSnoc(parseFloat, segs[..|segs| - 1], current);
    LoopContinues(parseFloat, segs);
  }

  /** The loop's number and word branches keep the state description. */
  lemma TokenKeeps(
    parseFloat: string -> Option<real>, p: seq<string>, t: string,
    words: seq<string>, operators: seq<string>, multipliers: seq<real>,
    currentWord: string, currentMultiplier: real)
    requires !IsOperator(t)
    requires Scanned(parseFloat, p, words, operators, multipliers, currentWord, currentMultiplier)
    ensures parseFloat(t).Some? ==>
      Scanned(parseFloat, p + [t], words, operators, multipliers, currentWord, parseFloat(t).value)
    ensures parseFloat(t).None? ==>
      Scanned(parseFloat, p + [t], words, operators, multipliers, currentWord + t + " ", currentMultiplier)
  {
    var segs := Segments(p);
    var current := segs[|segs| - 1];
    TokenStep(p, t);
    SegmentSnoc(parseFloat, current, t);
    LoopFailsOnClosed(parseFloat, segs, Segments(p + [t]));
    AccumulatedSnoc(WordTokens(parseFloat, current), t);
  }

  /** After the last token the final word is added: the collected lists
      then cover every segment. */
  lemma FinalSegment(
    parseFloat: string -> Option<real>, parts: seq<string>,
    words: seq<string>, operators: seq<string>, multipliers: seq<real>,
    currentWord: string, currentMultiplier: real)
    requires SplitTokens(parts)
    requires Scanned(parseFloat, parts, words, operators, multipliers, currentWord, currentMultiplier)
    ensures var w := Strip(currentWord);
      && (if w != "" then words + [w] else words) == WordsOf(parseFloat, Segments(parts))
      && (if w != "" then multipliers + [currentMultiplier] else multipliers) == MultipliersOf(parseFloat, Segments(parts))
  {
    var segs := Segments(parts);
    var current := segs[|segs| - 1];
    StripAccumulated(WordTokens(parseFloat, current));
    assert segs == segs[..|segs| - 1] + [current];
    CollectSnoc(parseFloat, segs[..|segs| - 1], current);
  }

  /** The count checks after the loop decide as the segment description
      does. */
  lemma CountChecks(parseFloat: string -> Option<real>, ts: seq<string>)
    requires !LoopFails(parseFloat, Segments(ts))
    ensures var words, multipliers := WordsOf(parseFloat, Segments(ts)), MultipliersOf(parseFloat, Segments(ts));
      var operators := Operators(ts);
      MixReference(parseFloat, ts) ==
        if |words| == 0 then Err(NoWords())
        else if |operators| > 0 && |operators| != |words| - 1 then Err(OperatorCountMismatch())
        else Ok(MixExpression(words, operators, multipliers))
  {
    var segs := Segments(ts);
    WordsOfCount(parseFloat, segs);
    NoWordsOfCount(parseFloat, segs);
    if |WordsOf(parseFloat, segs)| == 0 {
      NoWordsCase(parseFloat, ts);
    } else if AllHaveWords(parseFloat, segs) {
      AllWordsCase(parseFloat, ts);
    } else {
      MismatchCase(parseFloat, ts);
    }
  }

  lemma NoWordsCase(parseFloat: string -> Option<real>, ts: seq<string>)
    requires !LoopFails(parseFloat, Segments(ts)) && |WordsOf(parseFloat, Segments(ts))| == 0
    ensures MixReference(parseFloat, ts) == Err(NoWords())
  {
    var segs := Segments(ts);
    WordsOfCount(parseFloat, segs);
    NoWordsOfCount(parseFloat, segs);
    FailingSegmentIsWordless(parseFloat, segs, 0);
  }

  lemma AllWordsCase(parseFloat: string -> Option<real>, ts: seq<string>)
    requires !LoopFails(parseFloat, Segments(ts)) && AllHaveWords(parseFloat, Segments(ts))
    ensures MixReference(parseFloat, ts)
      == Ok(MixExpression(WordsOf(parseFloat, Segments(ts)), Operators(ts), MultipliersOf(parseFloat, Segments(ts))))
  {
    var segs := Segments(ts);
    AllWordsCollected(parseFloat, segs);
    AllMultipliersCollected(parseFloat, segs);
    assert WordsOf(parseFloat, segs) == SegmentWords(parseFloat, segs);
    assert MultipliersOf(parseFloat, segs) == SegmentMultipliers(parseFloat, segs);
  }

  lemma MismatchCase(parseFloat: string -> Option<real>, ts: seq<string>)
    requires !LoopFails(parseFloat, Segments(ts)) && |WordsOf(parseFloat, Segments(ts))| > 0
    requires !AllHaveWords(parseFloat, Segments(ts))
    ensures |Operators(ts)| > 0 && |Operators(ts)| != |WordsOf(parseFloat, Segments(ts))| - 1
    ensures MixReference(parseFloat, ts) == Err(OperatorCountMismatch())
  {
    WordsOfCount(parseFloat, Segments(ts));
    NoWordsOfCount(parseFloat, Segments(ts));
  }

  /** The token loop of the `/mix` handler: each operator closes the
      current segment, each number replaces the current multiplier, every
      other token is appended to the current word. It stops early on an
      operator that follows no word. */
  method ScanTokens(parseFloat: string -> Option<real>, parts: seq<string>)
    returns (failed: bool, words: seq<string>, operators: seq<string>, multipliers: seq<real>,
             currentWord: string, currentMultiplier: real)
    requires SplitTokens(parts)
    ensures failed <==> LoopFails(parseFloat, Segments(parts))
    ensures !failed ==> Scanned(parseFloat, parts, words, operators, multipliers, currentWord, currentMultiplier)
  {
    words, operators, multipliers := [], [], [];
    currentWord, currentMultiplier := "", 1.0;
    var i := 0;
    ghost var seen: seq<string> := [];
    while i < |parts|
      invariant 0 <= i <= |parts| && seen == parts[..i]
      invariant Scanned(parseFloat, seen, words, operators, multipliers, currentWord, currentMultiplier)
    {
      var part := parts[i];
      PrefixGrows(parts, i);
      if part == "+" || part == "-" {
        TokensPrefix(parts, i);
        StripAccumulated(WordTokens(parseFloat, Segments(seen)[|Segments(seen)| - 1]));
        if Strip(currentWord) == "" && i > 0 {
          FailureIsFinal(parseFloat, parts, i);
          return true, words, operators, multipliers, currentWord, currentMultiplier;
        }
        OperatorKeeps(parseFloat, seen, part, words, operators, multipliers, currentWord, currentMultiplier);
        operators := operators + [part];
        if Strip(currentWord) != "" {
          words := words + [Strip(currentWord)];
          multipliers := multipliers + [currentMultiplier];
        }
        currentWord := "";
        currentMultiplier := 1.0;
      } else {
        TokenKeeps(parseFloat, seen, part, words, operators, multipliers, currentWord, currentMultiplier);
        match parseFloat(part)
        case Some(m) =>
          currentMultiplier := m;
        case None =>
          currentWord := currentWord + part + " ";
      }
      seen := seen + [part];
      i := i + 1;
    }
    assert parts[..i] == parts;
    failed := false;
  }

  /** The `/mix` expression parser: the token loop, then the final word and
      the count checks. It yields exactly the segment description. */
  method ParseMix(parseFloat: string -> Option<real>, parts: seq<string>) returns (r: Result<MixExpression>)
    requires SplitTokens(parts)
    ensures r == MixReference(parseFloat, parts)
  {
    var failed, words, operators, multipliers, currentWord, currentMultiplier := ScanTokens(parseFloat, parts);
    if failed {
      return Err(OperatorWithoutWord());
    }
    FinalSegment(parseFloat, parts, words, operators, multipliers, currentWord, currentMultiplier);
    CountChecks(parseFloat, parts);
    if Strip(currentWord) != "" {
      words := words + [Strip(currentWord)];
      multipliers := multipliers + [currentMultiplier];
    }
    // A word and its multiplier are always appended together, so the
    // handler's check that the two lists have equal length never fires.
    assert |words| == |multipliers|;
    if |words| == 0 {
      return Err(NoWords());
    }
    if |operators| > 0 && |operators| != |words| - 1 {
      return Err(OperatorCountMismatch());
    }
    return Ok(MixExpression(words, operators, multipliers));
  }
}

=== FILE: outcomes.dfy ===
/** Optional values, Python-style exceptions and the failure-compatible
    result type every fallible operation of the model returns. */
module Outcomes {

  datatype Option<+T> = None | Some(value: T)

  /** The exception classes the modelled code raises or catches. */
  datatype ExceptionKind =
    | ValueError
    | IndexError
    | FileNotFoundError
    | RuntimeError

  /** A raised exception: its class and the text `str(e)` yields. */
  datatype Exception = Exception(kind: ExceptionKind, message: string)

  datatype Result<+T> = Ok(value: T) | Err(error: Exception) {

    predicate IsFailure() {
      Err?
    }

    function PropagateFailure<U>(): Result<U>
      requires Err?
    {
      Err(error)
    }

    function Extract(): T
      requires Ok?
    {
      value
    }
  }
}

=== FILE: ranking.dfy ===
/** Ranking of scored results: Python's stable `list.sort(key=...)` and the
    prefix slice `results[:k]` that keeps the top k. */
module Ranking {

  /** Python's `s[:k]`; a negative `k` counts from the end. */
  function Take<T>(s: seq<T>, k: int): (r: seq<T>)
    ensures |r| <= |s| && r == s[..|r|]
    ensures k >= 0 ==> |r| == if k < |s| then k else |s|
    ensures k < 0 ==> |r| == if |s| + k > 0 then |s| + k else 0
  {
    if k >= 0 then (if k < |s| then s[..k] else s)
    else (if |s| + k > 0 then s[..|s| + k] else [])
  }

  /** Non-decreasing by `key`. */
  ghost predicate SortedBy<T>(s: seq<T>, key: T -> real) {
    forall i, j :: 0 <= i < j < |s| ==> key(s[i]) <= key(s[j])
  }

  /** The elements of `s` whose key is `c`, in their order in `s`. A sort is
      stable exactly when it keeps every such class unchanged. */
  function KeyClass<T>(s: seq<T>, key: T -> real, c: real): seq<T>
  {
    if |s| == 0 then []
    else KeyClass(s[..|s| - 1], key, c) + (if key(s[|s| - 1]) == c then [s[|s| - 1]] else [])
  }

  /** Places `x` after every element of `s` (sorted by `key`) whose key
      is not greater than its own. */
  function Insert<T>(s: seq<T>, x: T, key: T -> real): (r: seq<T>)
    ensures multiset(r) == multiset(s) + multiset{x} && |r| == |s| + 1
  {
    if |s| == 0 then [x]
    else if key(s[|s| - 1]) <= key(x) then s + [x]
    else
      assert s == s[..|s| - 1] + [s[|s| - 1]];
      Insert(s[..|s| - 1], x, key) + [s[|s| - 1]]
  }

  lemma {:induction false} InsertSorted<T>(s: seq<T>, x: T, key: T -> real)
    requires SortedBy(s, key)
    ensures SortedBy(Insert(s, x, key), key)
  {
    if |s| > 0 && key(x) < key(s[|s| - 1]) {
      var init, last := s[..|s| - 1], s[|s| - 1];
      var r' := Insert(init, x, key);
      InsertSorted(init, x, key);
      forall y | y in r' ensures key(y) <= key(last) {
        assert y in multiset(r');
        if y != x {
          assert y in multiset(init);
          var j :| 0 <= j < |init| && init[j] == y;
          assert s[j] == y;
        }
      }
      var r := r' + [last];
      forall i, j | 0 <= i < j < |r| ensures key(r[i]) <= key(r[j]) {
        if j == |r| - 1 {
          assert r[i] in r';
        } else {
          assert r[i] == r'[i] && r[j] == r'[j];
        }
      }
    }
  }

  lemma KeyClassSnoc<T>(s: seq<T>, y: T, key: T -> real, c: real)
    ensures KeyClass(s + [y], key, c) == KeyClass(s, key, c) + (if key(y) == c then [y] else [])
  {
    assert (s + [y])[..|s|] == s;
  }

  lemma SortedPrefix<T>(s: seq<T>, n: nat, key: T -> real)
    requires SortedBy(s, key) && n <= |s|
    ensures SortedBy(s[..n], key)
  {
    forall i, j | 0 <= i < j < n ensures key(s[..n][i]) <= key(s[..n][j]) {
      assert s[..n][i] == s[i] && s[..n][j] == s[j];
    }
  }

  lemma {:induction false} InsertKeyClass<T>(s: seq<T>, x: T, key: T -> real, c: real)
    requires SortedBy(s, key)
    ensures KeyClass(Insert(s, x, key), key, c) == KeyClass(s, key, c) + (if key(x) == c then [x] else [])
  {
    if |s| == 0 {
    } else if key(s[|s| - 1]) <= key(x) {
      KeyClassSnoc(s, x, key, c);
    } else {
      var init, last := s[..|s| - 1], s[|s| - 1];
      assert s == init + [last];
      var r' := Insert(init, x, key);
      assert Insert(s, x, key) == r' + [last];
      SortedPrefix(s, |s| - 1, key);
      InsertKeyClass(init, x, key, c);
      KeyClassSnoc(r', last, key, c);
      KeyClassSnoc(init, last, key, c);
      var base := KeyClass(init, key, c);
      if key(x) == c {
        assert key(last) != c;
        assert KeyClass(s, key, c) == base;
        assert KeyClass(Insert(s, x, key), key, c) == base + [x];
      } else {
        assert KeyClass(r', key, c) == base;
      }
    }
  }

  /** Python's stable `sorted(s, key=key)`: insertion sort, processing the
      elements in their original order. */
  function SortBy<T>(s: seq<T>, key: T -> real): (r: seq<T>)
    ensures SortedBy(r, key)
    ensures multiset(r) == multiset(s) && |r| == |s|
    ensures forall c {:trigger KeyClass(r, key, c)} :: KeyClass(r, key, c) == KeyClass(s, key, c)
  {
    if |s| == 0 then []
    else
      var init, last := s[..|s| - 1], s[|s| - 1];
      var sortedInit := SortBy(init, key);
      assert s == init + [last];
      SortStep(sortedInit, init, last, key);
      Insert(sortedInit, last, key)
  }

  /** Inserting the next element into a stable sort of the elements before
      it gives a stable sort of them all. */
  lemma SortStep<T>(sortedInit: seq<T>, init: seq<T>, last: T, key: T -> real)
    requires SortedBy(sortedInit, key) && multiset(sortedInit) == multiset(init) && |sortedInit| == |init|
    requires forall c {:trigger KeyClass(sortedInit, key, c)} :: KeyClass(sortedInit, key, c) == KeyClass(init, key, c)
    ensures var r := Insert(sortedInit, last, key);
      && SortedBy(r, key)
      && multiset(r) == multiset(init + [last]) && |r| == |init| + 1
      && forall c {:trigger KeyClass(r, key, c)} :: KeyClass(r, key, c) == KeyClass(init + [last], key, c)
  {
    var r := Insert(sortedInit, last, key);
    InsertSorted(sortedInit, last, key);
    forall c ensures KeyClass(r, key, c) == KeyClass(init + [last], key, c) {
      InsertKeyClass(sortedInit, last, key, c);
      KeyClassSnoc(init, last, key, c);
    }
  }

  /** Every element of a key class belongs to the sequence. */
  lemma {:induction false} KeyClassMembers<T>(s: seq<T>, key: T -> real, c: real)
    ensures forall y :: y in KeyClass(s, key, c) ==> y in s
  {
    if |s| > 0 {
      KeyClassMembers(s[..|s| - 1], key, c);
      assert s == s[..|s| - 1] + [s[|s| - 1]];
    }
  }

  /** In a sorted sequence no element has a key above the last one's. */
  lemma LastHasGreatestKey<T>(s: seq<T>, key: T -> real, y: T)
    requires SortedBy(s, key) && y in s
    ensures key(y) <= key(s[|s| - 1])
  {
    var i :| 0 <= i < |s| && s[i] == y;
    if i < |s| - 1 {
      assert key(s[i]) <= key(s[|s| - 1]);
    }
  }

  /** Sorted sequences with the same key classes end with the same element. */
  lemma SameLast<T>(r1: seq<T>, r2: seq<T>, key: T -> real)
    requires |r1| > 0 && |r2| > 0
    requires SortedBy(r1, key) && SortedBy(r2, key)
    requires forall c {:trigger KeyClass(r1, key, c)} :: KeyClass(r1, key, c) == KeyClass(r2, key, c)
    ensures r1[|r1| - 1] == r2[|r2| - 1]
  {
    var x1, x2 := r1[|r1| - 1], r2[|r2| - 1];
    var p1, p2 := r1[..|r1| - 1], r2[..|r2| - 1];
    assert r1 == p1 + [x1] && r2 == p2 + [x2];
    KeyClassSnoc(p1, x1, key, key(x1));
    KeyClassSnoc(p2, x2, key, key(x2));
    assert KeyClass(r1, key, key(x1)) == KeyClass(r2, key, key(x1));
    assert KeyClass(r1, key, key(x2)) == KeyClass(r2, key, key(x2));
    KeyClassMembers(r2, key, key(x1));
    KeyClassMembers(r1, key, key(x2));
    LastHasGreatestKey(r2, key, x1);
    LastHasGreatestKey(r1, key, x2);
    var k := KeyClass(r1, key, key(x1));
    assert k[|k| - 1] == x1;
    assert k == KeyClass(r2, key, key(x2));
    assert k[|k| - 1] == x2;
  }

  /** Dropping the same last element keeps the key classes equal. */
  lemma SameClassesOfInit<T>(r1: seq<T>, r2: seq<T>, key: T -> real)
    requires |r1| > 0 && |r2| > 0 && r1[|r1| - 1] == r2[|r2| - 1]
    requires forall c {:trigger KeyClass(r1, key, c)} :: KeyClass(r1, key, c) == KeyClass(r2, key, c)
    ensures forall c {:trigger KeyClass(r1[..|r1| - 1], key, c)} ::
      KeyClass(r1[..|r1| - 1], key, c) == KeyClass(r2[..|r2| - 1], key, c)
  {
    var x := r1[|r1| - 1];
    var p1, p2 := r1[..|r1| - 1], r2[..|r2| - 1];
    SplitLast(r1);
    SplitLast(r2);
    forall c ensures KeyClass(p1, key, c) == KeyClass(p2, key, c) {
      KeyClassSnoc(p1, x, key, c);
      KeyClassSnoc(p2, x, key, c);
      assert KeyClass(r1, key, c) == KeyClass(r2, key, c);
      AppendCancel(KeyClass(p1, key, c), KeyClass(p2, key, c), if key(x) == c then [x] else []);
    }
  }

  lemma SplitLast<T>(s: seq<T>)
    requires |s| > 0
    ensures s == s[..|s| - 1] + [s[|s| - 1]]
  {
  }

  lemma AppendCancel<T>(a: seq<T>, b: seq<T>, t: seq<T>)
    requires a + t == b + t
    ensures a == b
  {
    assert a == (a + t)[..|a|];
    assert b == (b + t)[..|b|];
  }

  /** A non-empty sequence has a non-empty key class. */
  lemma NonEmptyClass<T>(s: seq<T>, key: T -> real)
    requires |s| > 0
    ensures KeyClass(s, key, key(s[|s| - 1])) != []
  {
    var c := key(s[|s| - 1]);
    assert KeyClass(s, key, c) == KeyClass(s[..|s| - 1], key, c) + [s[|s| - 1]];
  }

  /** Sequences with the same key classes are empty together. */
  lemma SameEmptiness<T>(r1: seq<T>, r2: seq<T>, key: T -> real)
    requires forall c {:trigger KeyClass(r1, key, c)} :: KeyClass(r1, key, c) == KeyClass(r2, key, c)
    ensures |r1| == 0 <==> |r2| == 0
  {
    if |r2| > 0 {
      NonEmptyClass(r2, key);
      var c := key(r2[|r2| - 1]);
      assert KeyClass(r1, key, c) != [];
    }
    if |r1| > 0 {
      NonEmptyClass(r1, key);
      var c := key(r1[|r1| - 1]);
      assert KeyClass(r2, key, c) != [];
    }
  }

  /** Two sorted sequences whose key classes all agree are equal: a stable
      sort has exactly one possible result, so `SortBy` is the result of any
      stable sort, Python's included. */
  lemma {:induction false} StableSortIsUnique<T>(r1: seq<T>, r2: seq<T>, key: T -> real)
    requires SortedBy(r1, key) && SortedBy(r2, key)
    requires forall c {:trigger KeyClass(r1, key, c)} :: KeyClass(r1, key, c) == KeyClass(r2, key, c)
    ensures r1 == r2
    decreases |r1| + |r2|
  {
    SameEmptiness(r1, r2, key);
    if |r1| > 0 {
      SameLast(r1, r2, key);
      SameClassesOfInit(r1, r2, key);
      SortedPrefix(r1, |r1| - 1, key);
      SortedPrefix(r2, |r2| - 1, key);
      StableSortIsUnique(r1[..|r1| - 1], r2[..|r2| - 1], key);
      assert r1 == r1[..|r1| - 1] + [r1[|r1| - 1]];
      assert r2 == r2[..|r2| - 1] + [r2[|r2| - 1]];
    }
  }

  /** Below the key of its last entry, a prefix of a sorted sequence holds
      the whole key class: every later entry has a key at least as large. */
  lemma {:induction false} SortedPrefixClass<T>(sorted: seq<T>, key: T -> real, c: real, n: nat)
    requires SortedBy(sorted, key) && 0 < n <= |sorted| && c < key(sorted[n - 1])
    ensures KeyClass(sorted[..n], key, c) == KeyClass(sorted, key, c)
    decreases |sorted| - n
  {
    if n < |sorted| {
      var init := sorted[..|sorted| - 1];
      assert sorted[..n] == init[..n];
      SortedPrefix(sorted, |sorted| - 1, key);
      SortedPrefixClass(init, key, c, n);
      assert key(sorted[n - 1]) <= key(sorted[|sorted| - 1]);
      assert KeyClass(sorted, key, c) == KeyClass(init, key, c) + [];
    } else {
      assert sorted[..n] == sorted;
    }
  }

  /** A prefix of a stable sort of `s` holds, for every key below its last
      one, all the elements `s` has with that key. */
  lemma PrefixCompletesSmaller<T>(sorted: seq<T>, s: seq<T>, key: T -> real, n: nat)
    requires SortedBy(sorted, key) && n <= |sorted|
    requires forall c {:trigger KeyClass(sorted, key, c)} :: KeyClass(sorted, key, c) == KeyClass(s, key, c)
    ensures forall c {:trigger KeyClass(sorted[..n], key, c)} ::
      n > 0 && c < key(sorted[..n][n - 1]) ==> KeyClass(sorted[..n], key, c) == KeyClass(s, key, c)
  {
    forall c | n > 0 && c < key(sorted[..n][n - 1])
      ensures KeyClass(sorted[..n], key, c) == KeyClass(s, key, c)
    {
      SortedPrefixClass(sorted, key, c, n);
    }
  }

  /** A prefix of a rearrangement of `s` holds only entries of `s`. */
  lemma PrefixMembers<T>(sorted: seq<T>, s: seq<T>, n: nat)
    requires n <= |sorted| && multiset(sorted) == multiset(s)
    ensures forall y :: y in sorted[..n] ==> y in s
  {
    forall y | y in sorted[..n] ensures y in s {
      assert y in multiset(sorted);
    }
  }

  /** The key classes of a prefix are prefixes of the key classes. */
  lemma {:induction false} KeyClassOfPrefix<T>(s: seq<T>, key: T -> real, c: real, n: nat)
    requires n <= |s|
    ensures KeyClass(s[..n], key, c) <= KeyClass(s, key, c)
    decreases |s| - n
  {
    if n < |s| {
      var init := s[..|s| - 1];
      assert s[..n] == init[..n];
      KeyClassOfPrefix(init, key, c, n);
      var whole := KeyClass(s, key, c);
      assert whole == KeyClass(init, key, c) + (if key(s[|s| - 1]) == c then [s[|s| - 1]] else []);
      var a, b := KeyClass(s[..n], key, c), KeyClass(init, key, c);
      assert b == whole[..|b|];
      assert a == b[..|a|];
      assert a == whole[..|a|];
    } else {
      assert s[..n] == s;
    }
  }

  /** A prefix of a stable sort of `s` keeps, for every key, a prefix of the
      elements `s` has with that key. */
  lemma PrefixClasses<T>(sorted: seq<T>, s: seq<T>, key: T -> real, n: nat)
    requires n <= |sorted|
    requires forall c {:trigger KeyClass(sorted, key, c)} :: KeyClass(sorted, key, c) == KeyClass(s, key, c)
    ensures forall c {:trigger KeyClass(sorted[..n], key, c)} :: KeyClass(sorted[..n], key, c) <= KeyClass(s, key, c)
  {
    forall c ensures KeyClass(sorted[..n], key, c) <= KeyClass(s, key, c) {
      KeyClassOfPrefix(sorted, key, c, n);
    }
  }

  /** `r` is what ranking `s` by ascending `key` with a stable sort and
      keeping the first `k` entries gives: `min(k, |s|)` entries of `s`,
      sorted; every key below the last kept one keeps all of its entries of
      `s`, duplicates included; and each key keeps its entries in their
      order in `s`, so that where the cut falls inside a tie the earlier
      entries of `s` are the ones kept. `TopKIsUnique` shows that at most
      one sequence fits. */
  ghost predicate IsTopK<T>(r: seq<T>, s: seq<T>, key: T -> real, k: int) {
    && (k >= 0 ==> |r| == if k < |s| then k else |s|)
    && SortedBy(r, key)
    && (forall y :: y in r ==> y in s)
    && (forall c :: ClassKept(r, s, key, c))
  }

  /** What a ranking `r` of `s` keeps of the entries with key `c`: a prefix
      of them, in their order in `s`, and all of them when `c` lies below
      the key of the last entry `r` keeps. */
  ghost predicate ClassKept<T>(r: seq<T>, s: seq<T>, key: T -> real, c: real) {
    && KeyClass(r, key, c) <= KeyClass(s, key, c)
    && (|r| > 0 && c < key(r[|r| - 1]) ==> KeyClass(r, key, c) == KeyClass(s, key, c))
  }

  /** Ranking `s` by `key` and keeping the first `k` entries. */
  function TopBy<T>(s: seq<T>, key: T -> real, k: int): (r: seq<T>)
    ensures IsTopK(r, s, key, k)
  {
    var sorted := SortBy(s, key);
    var r := Take(sorted, k);
    SortedPrefixRanks(s, key, |r|);
    r
  }

  /** The first `n` entries of the stable sort of `s` rank as `[:n]`
      promises. */
  lemma SortedPrefixRanks<T>(s: seq<T>, key: T -> real, n: nat)
    requires n <= |s|
    ensures IsTopK(SortBy(s, key)[..n], s, key, n)
  {
    PrefixRanks(SortBy(s, key), s, key, n);
  }

  /** The first `n` entries of any stable sort of `s` rank as `[:n]`
      promises. */
  lemma PrefixRanks<T>(sorted: seq<T>, s: seq<T>, key: T -> real, n: nat)
    requires n <= |sorted| == |s| && SortedBy(sorted, key) && multiset(sorted) == multiset(s)
    requires forall c {:trigger KeyClass(sorted, key, c)} :: KeyClass(sorted, key, c) == KeyClass(s, key, c)
    ensures IsTopK(sorted[..n], s, key, n)
  {
    PrefixMembers(sorted, s, n);
    SortedPrefix(sorted, n, key);
    PrefixCompletesSmaller(sorted, s, key, n);
    PrefixClasses(sorted, s, key, n);
    TopKOfParts(sorted[..n], s, key, n);
  }

  /** Gathers the facts `IsTopK` is made of. */
  lemma TopKOfParts<T>(r: seq<T>, s: seq<T>, key: T -> real, n: nat)
    requires |r| == n <= |s| && SortedBy(r, key)
    requires forall y :: y in r ==> y in s
    requires forall c {:trigger KeyClass(r, key, c)} ::
      |r| > 0 && c < key(r[|r| - 1]) ==> KeyClass(r, key, c) == KeyClass(s, key, c)
    requires forall c {:trigger KeyClass(r, key, c)} :: KeyClass(r, key, c) <= KeyClass(s, key, c)
    ensures IsTopK(r, s, key, n)
  {
    forall c ensures ClassKept(r, s, key, c) {
      assert KeyClass(r, key, c) <= KeyClass(s, key, c);
    }
  }

  /** Dropping the last entry of a top-k ranking leaves a top-(k-1)
      ranking. */
  lemma TopKOfInit<T>(r: seq<T>, s: seq<T>, key: T -> real, k: int)
    requires k >= 0 && IsTopK(r, s, key, k) && |r| > 0
    ensures IsTopK(r[..|r| - 1], s, key, |r| - 1)
  {
    var p, x := r[..|r| - 1], r[|r| - 1];
    SplitLast(r);
    SortedPrefix(r, |r| - 1, key);
    forall c {:trigger KeyClass(p, key, c)} | |p| > 0 && c < key(p[|p| - 1])
      ensures KeyClass(p, key, c) == KeyClass(s, key, c)
    {
      assert key(r[|p| - 1]) <= key(x);
      KeyClassSnoc(p, x, key, c);
      assert ClassKept(r, s, key, c);
    }
    forall c {:trigger KeyClass(p, key, c)} ensures KeyClass(p, key, c) <= KeyClass(s, key, c) {
      KeyClassOfPrefix(r, key, c, |r| - 1);
      assert ClassKept(r, s, key, c);
    }
    forall y | y in p ensures y in s {
      assert y in r;
    }
    TopKOfParts(p, s, key, |r| - 1);
  }

  /** At most one sequence is a top-k ranking of `s`: the ranking keeps the
      duplicates `s` holds, and so fixes the program's list exactly. */
  lemma {:induction false} TopKIsUnique<T>(r1: seq<T>, r2: seq<T>, s: seq<T>, key: T -> real, k: int)
    requires k >= 0 && IsTopK(r1, s, key, k) && IsTopK(r2, s, key, k)
    ensures r1 == r2
    decreases |r1|
  {
    if |r1| > 0 {
      var n := |r1|;
      TopKOfInit(r1, s, key, k);
      TopKOfInit(r2, s, key, k);
      TopKIsUnique(r1[..n - 1], r2[..n - 1], s, key, n - 1);
      var p, x, y := r1[..n - 1], r1[n - 1], r2[n - 1];
      SplitLast(r1);
      SplitLast(r2);
      assert ClassKept(r1, s, key, key(x)) && ClassKept(r1, s, key, key(y));
      assert ClassKept(r2, s, key, key(x)) && ClassKept(r2, s, key, key(y));
      LastEntriesAgree(p, x, y, s, key);
    }
  }

  /** Two top-k rankings that agree but for the last entry agree on it too. */
  lemma LastEntriesAgree<T>(p: seq<T>, x: T, y: T, s: seq<T>, key: T -> real)
    requires ClassKept(p + [x], s, key, key(x)) && ClassKept(p + [x], s, key, key(y))
    requires ClassKept(p + [y], s, key, key(x)) && ClassKept(p + [y], s, key, key(y))
    ensures x == y
  {
    KeyClassSnoc(p, x, key, key(x));
    KeyClassSnoc(p, y, key, key(y));
    KeyClassSnoc(p, x, key, key(y));
    KeyClassSnoc(p, y, key, key(x));
    var kx, ky := KeyClass(p, key, key(x)), KeyClass(p, key, key(y));
    if key(x) < key(y) {
      assert false;
    } else if key(y) < key(x) {
      assert false;
    } else {
      assert (kx + [x])[|kx|] == KeyClass(s, key, key(x))[|kx|];
      assert (kx + [y])[|kx|] == KeyClass(s, key, key(x))[|kx|];
    }
  }

  /** Any top-k ranking of `s` is the one the stable sort and the slice
      give. */
  lemma TopByIsUnique<T>(r: seq<T>, s: seq<T>, key: T -> real, k: int)
    requires k >= 0 && IsTopK(r, s, key, k)
    ensures r == TopBy(s, key, k)
  {
    TopKIsUnique(r, TopBy(s, key, k), s, key, k);
  }
}

=== FILE: text.dfy ===
/** The handful of Python string operations the modelled code relies on:
    `str.strip()`, the `in` substring test, `split("'")[1]`, the
    space-joined word a loop builds token by token, and `str(int)`. */
module Text {
  import opened Outcomes
  import opened Lists

  /** Python's `str.isspace()` for a single character: the characters
      `str.strip()` removes and `str.split()` separates on. */
  predicate IsSpace(c: char) {
    || ('\U{0009}' <= c <= '\U{000D}')
    || ('\U{001C}' <= c <= '\U{0020}')
    || c == '\U{0085}' || c == '\U{00A0}' || c == '\U{1680}'
    || ('\U{2000}' <= c <= '\U{200A}')
    || c == '\U{2028}' || c == '\U{2029}' || c == '\U{202F}' || c == '\U{205F}'
    || c == '\U{3000}'
  }

  predicate NoSpace(s: string) {
    forall i :: 0 <= i < |s| ==> !IsSpace(s[i])
  }

  /** What `str.split()` yields: non-empty tokens without whitespace. */
  predicate SplitTokens(ts: seq<string>) {
    forall i :: 0 <= i < |ts| ==> ts[i] != "" && NoSpace(ts[i])
  }

  /** Number of leading whitespace characters of `s`. */
  function LeadingSpaces(s: string): (n: nat)
    ensures n <= |s|
    ensures forall i :: 0 <= i < n ==> IsSpace(s[i])
    ensures n < |s| ==> !IsSpace(s[n])
  {
    if |s| > 0 && IsSpace(s[0]) then 1 + LeadingSpaces(s[1..]) else 0
  }

  /** Number of trailing whitespace characters of `s`. */
  function TrailingSpaces(s: string): (n: nat)
    ensures n <= |s|
    ensures forall i :: |s| - n <= i < |s| ==> IsSpace(s[i])
    ensures n < |s| ==> !IsSpace(s[|s| - n - 1])
  {
    if |s| > 0 && IsSpace(s[|s| - 1]) then 1 + TrailingSpaces(s[..|s| - 1]) else 0
  }

  /** Python's `s.rstrip()`. */
  function StripEnd(s: string): (r: string)
    ensures |r| <= |s| && r == s[..|r|]
    ensures r == [] || !IsSpace(r[|r| - 1])
    ensures forall i :: |r| <= i < |s| ==> IsSpace(s[i])
    ensures NoSpace(s) ==> r == s
  {
    s[..|s| - TrailingSpaces(s)]
  }

  /** Python's `s.strip()`. */
  function Strip(s: string): (r: string)
    ensures LeadingSpaces(s) + |r| <= |s|
    ensures r == [] || (!IsSpace(r[0]) && !IsSpace(r[|r| - 1]))
    ensures s == s[..LeadingSpaces(s)] + r + s[LeadingSpaces(s) + |r|..]
    ensures forall i :: LeadingSpaces(s) + |r| <= i < |s| ==> IsSpace(s[i])
    ensures NoSpace(s) ==> r == s
  {
    StripEdges(s);
    StripSplits(s);
    StripTail(s);
    StripNoSpace(s);
    StripEnd(s[LeadingSpaces(s)..])
  }

  lemma StripTail(s: string)
    ensures var lead, r := LeadingSpaces(s), StripEnd(s[LeadingSpaces(s)..]);
      && lead + |r| <= |s|
      && forall i :: lead + |r| <= i < |s| ==> IsSpace(s[i])
  {
    var lead := LeadingSpaces(s);
    var r := StripEnd(s[lead..]);
    forall i | lead + |r| <= i < |s| ensures IsSpace(s[i]) {
      assert s[i] == s[lead..][i - lead];
    }
  }

  lemma StripEdges(s: string)
    ensures var r := StripEnd(s[LeadingSpaces(s)..]);
      r == [] || (!IsSpace(r[0]) && !IsSpace(r[|r| - 1]))
  {
    var r := StripEnd(s[LeadingSpaces(s)..]);
    assert r != [] ==> r[0] == s[LeadingSpaces(s)];
  }

  lemma StripSplits(s: string)
    ensures var lead, r := LeadingSpaces(s), StripEnd(s[LeadingSpaces(s)..]);
      s == s[..lead] + r + s[lead + |r|..]
  {
    var lead := LeadingSpaces(s);
    var r := StripEnd(s[lead..]);
    assert r == s[lead..lead + |r|];
    SplitThree(s, lead, lead + |r|);
  }

  lemma SplitThree<T>(s: seq<T>, a: nat, b: nat)
    requires a <= b <= |s|
    ensures s == s[..a] + s[a..b] + s[b..]
  {
  }

  lemma StripNoSpace(s: string)
    ensures NoSpace(s) ==> StripEnd(s[LeadingSpaces(s)..]) == s
  {
    if NoSpace(s) {
      assert LeadingSpaces(s) == 0;
      assert s[0..] == s;
    }
  }

  /** Python's `sub in s` for strings: `sub` occurs at some position of `s`.
      The empty string occurs in every string, and a one-character `sub`
      occurs exactly when its character is an element of `s`. */
  function Contains(s: string, sub: string): (b: bool)
    ensures b ==> |sub| <= |s|
    ensures sub == [] ==> b
    ensures |sub| == 1 ==> (b <==> sub[0] in s)
  {
    OccurrenceFacts(s, sub);
    exists i :: 0 <= i <= |s| - |sub| && OccursAt(s, sub, i)
  }

  lemma OccurrenceFacts(s: string, sub: string)
    ensures sub == [] ==> OccursAt(s, sub, 0)
    ensures |sub| == 1 ==> ((exists i :: 0 <= i <= |s| - |sub| && OccursAt(s, sub, i)) <==> sub[0] in s)
  {
    if sub == [] {
      assert s[0..0] == sub;
    }
    if |sub| == 1 {
      if sub[0] in s {
        var i :| 0 <= i < |s| && s[i] == sub[0];
        assert s[i..i + 1] == sub;
        assert OccursAt(s, sub, i);
      }
      if exists i :: 0 <= i <= |s| - |sub| && OccursAt(s, sub, i) {
        var i :| 0 <= i <= |s| - |sub| && OccursAt(s, sub, i);
        assert s[i] == s[i..i + 1][0];
      }
    }
  }

  /** `sub` occurs in `s` starting at position `i`. */
  predicate OccursAt(s: string, sub: string, i: int) {
    0 <= i <= |s| - |sub| && s[i..i + |sub|] == sub
  }

  /** Python's `s.split(c)[1]`: the text between the first and the second
      occurrence of `c` (or to the end of `s`); `None` when `s` holds no `c`,
      where Python raises `IndexError`. */
  function SecondField(s: string, c: char): (r: Option<string>)
    ensures r.None? <==> c !in s
    ensures r.Some? ==> c !in r.value
  {
    match FirstIndex(s, c)
    case None => None
    case Some(i) =>
      var rest := s[i + 1..];
      match FirstIndex(rest, c)
      case None => Some(rest)
      case Some(j) => Some(rest[..j])
  }

  /** The second field of `pre + [c] + w + [c] + post` is `w` whenever
      neither `pre` nor `w` holds a `c`. */
  lemma SecondFieldOfQuoted(pre: string, w: string, post: string, c: char)
    requires c !in pre && c !in w
    ensures SecondField(pre + [c] + w + [c] + post, c) == Some(w)
  {
    var s := pre + [c] + w + [c] + post;
    assert s[|pre|] == c;
    assert s[..|pre|] == pre;
    var rest := s[|pre| + 1..];
    assert rest == w + [c] + post;
    assert rest[|w|] == c;
    assert rest[..|w|] == w;
  }

  /** Tokens joined by single spaces, built left to right. */
  function Join(ts: seq<string>): string
  {
    if |ts| == 0 then ""
    else if |ts| == 1 then ts[0]
    else Join(ts[..|ts| - 1]) + " " + ts[|ts| - 1]
  }

  /** The string a loop builds by appending each token and then a space
      (`current_word += part + " "`). */
  function Accumulated(ts: seq<string>): string
  {
    if |ts| == 0 then "" else Accumulated(ts[..|ts| - 1]) + ts[|ts| - 1] + " "
  }

  /** A join of non-empty, whitespace-free tokens is non-empty and starts and
      ends with a non-space character. */
  lemma {:induction false} JoinEdges(ts: seq<string>)
    requires |ts| > 0 && SplitTokens(ts)
    ensures |Join(ts)| > 0
    ensures Join(ts)[0] == ts[0][0]
    ensures Join(ts)[|Join(ts)| - 1] == ts[|ts| - 1][|ts[|ts| - 1]| - 1]
  {
    if |ts| > 1 {
      var p := ts[..|ts| - 1];
      assert SplitTokens(p) by {
        forall i | 0 <= i < |p| ensures p[i] != "" && NoSpace(p[i]) {
          assert p[i] == ts[i];
        }
      }
      JoinEdges(p);
      assert p[0] == ts[0];
    }
  }

  /** The accumulated string is the join followed by one space. */
  lemma {:induction false} AccumulatedIsJoinPlusSpace(ts: seq<string>)
    requires |ts| > 0
    ensures Accumulated(ts) == Join(ts) + " "
  {
    if |ts| > 1 {
      AccumulatedIsJoinPlusSpace(ts[..|ts| - 1]);
    } else {
      assert ts[..0] == [];
    }
  }

  /** `current_word.strip()` is exactly the tokens joined by single spaces,
      and it is empty exactly when no token has been appended. */
  lemma StripAccumulated(ts: seq<string>)
    requires SplitTokens(ts)
    ensures Strip(Accumulated(ts)) == Join(ts)
    ensures Join(ts) == "" <==> ts == []
  {
    if |ts| > 0 {
      AccumulatedIsJoinPlusSpace(ts);
      JoinEdges(ts);
      var j := Join(ts);
      var a := j + " ";
      assert !IsSpace(ts[|ts| - 1][|ts[|ts| - 1]| - 1]);
      assert !IsSpace(ts[0][0]);
      assert LeadingSpaces(a) == 0;
      assert TrailingSpaces(a[..|a| - 1]) == 0;
      assert a[..|a| - 1] == j;
      assert TrailingSpaces(a) == 1;
    }
  }

  /** Python's `str(n)` for a non-negative integer. */
  function NatToString(n: nat): (r: string)
    ensures |r| > 0
    ensures forall i :: 0 <= i < |r| ==> '0' <= r[i] <= '9'
  {
    var d := ['0', '1', '2', '3', '4', '5', '6', '7', '8', '9'];
    if n < 10 then [d[n]] else NatToString(n / 10) + [d[n % 10]]
  }
}

=== FILE: vectors.dfy ===
/** Dense word vectors as sequences of reals, the element-wise algebra the
    numpy code uses, and the perpendicular projection onto a line.

    The Euclidean norm (`np.linalg.norm`) is left uninterpreted: every
    operation that needs it takes it as a parameter `norm`, and only the
    properties a statement needs are required of it. */
module Vectors {

  type Vector = seq<real>

  function Zero(n: nat): (z: Vector)
    ensures |z| == n
    ensures forall i :: 0 <= i < n ==> z[i] == 0.0
  {
    seq(n, _ => 0.0)
  }

  predicate IsZero(v: Vector) {
    forall i :: 0 <= i < |v| ==> v[i] == 0.0
  }

  /** `u + v` */
  function Add(u: Vector, v: Vector): (r: Vector)
    requires |u| == |v|
    ensures |r| == |u|
    ensures forall i :: 0 <= i < |r| ==> r[i] == u[i] + v[i]
  {
    seq(|u|, i requires 0 <= i < |u| => u[i] + v[i])
  }

  /** `u - v` */
  function Sub(u: Vector, v: Vector): (r: Vector)
    requires |u| == |v|
    ensures |r| == |u|
    ensures forall i :: 0 <= i < |r| ==> r[i] == u[i] - v[i]
  {
    seq(|u|, i requires 0 <= i < |u| => u[i] - v[i])
  }

  /** `v * c` for a scalar `c` */
  function Scale(c: real, v: Vector): (r: Vector)
    ensures |r| == |v|
    ensures forall i :: 0 <= i < |r| ==> r[i] == c * v[i]
  {
    seq(|v|, i requires 0 <= i < |v| => c * v[i])
  }

  /** `np.dot(u, v)` */
  function Dot(u: Vector, v: Vector): real
    requires |u| == |v|
  {
    if |u| == 0 then 0.0 else u[0] * v[0] + Dot(u[1..], v[1..])
  }

  /** The guarded normalisation `v / norm(v) if norm(v) > 0 else v`. */
  function Normalize(norm: Vector -> real, v: Vector): (r: Vector)
    ensures |r| == |v|
    ensures norm(v) <= 0.0 ==> r == v
    ensures norm(v) > 0.0 ==> Scale(norm(v), r) == v
  {
    var n := norm(v);
    if n > 0.0 then
      var r := Scale(1.0 / n, v);
      assert Scale(n, r) == v by {
        var s := Scale(n, r);
        forall i | 0 <= i < |v| ensures s[i] == v[i] {
          assert n * (1.0 / n) == 1.0;
          calc {
            s[i];
            n * r[i];
            n * ((1.0 / n) * v[i]);
            (n * (1.0 / n)) * v[i];
            v[i];
          }
        }
      }
      r
    else v
  }

  lemma ScaleOne(v: Vector)
    ensures Scale(1.0, v) == v
  {
  }

  lemma ScaleTail(c: real, v: Vector)
    requires |v| > 0
    ensures Scale(c, v)[1..] == Scale(c, v[1..])
  {
    var s := Scale(c, v)[1..];
    forall i | 0 <= i < |s| ensures s[i] == c * v[1..][i] {
      assert s[i] == Scale(c, v)[i + 1];
    }
  }

  /** A norm vanishes on the zero vector. */
  ghost predicate ZeroHasNormZero(norm: Vector -> real) {
    forall n: nat :: norm(Zero(n)) == 0.0
  }

  /** A norm scales with a positive factor. */
  ghost predicate PositivelyHomogeneous(norm: Vector -> real) {
    forall c: real, v: Vector {:trigger norm(Scale(c, v))} :: c > 0.0 ==> norm(Scale(c, v)) == c * norm(v)
  }

  /** With a homogeneous norm, normalising twice is normalising once. */
  lemma NormalizeIdempotent(norm: Vector -> real, v: Vector)
    requires PositivelyHomogeneous(norm)
    ensures Normalize(norm, Normalize(norm, v)) == Normalize(norm, v)
  {
    if norm(v) > 0.0 {
      var c := 1.0 / norm(v);
      var u := Scale(c, v);
      assert norm(u) == c * norm(v) == 1.0;
      assert 1.0 / norm(u) == 1.0;
      ScaleOne(u);
    }
  }

  /** Normalising the zero vector leaves it zero, whatever the norm. */
  lemma NormalizeZero(norm: Vector -> real, v: Vector)
    requires IsZero(v)
    ensures IsZero(Normalize(norm, v))
  {
  }

  /** A dot product with the zero vector is 0. */
  lemma {:induction false} DotZeroRight(u: Vector, v: Vector)
    requires |u| == |v| && IsZero(v)
    ensures Dot(u, v) == 0.0
  {
    if |u| > 0 {
      DotZeroRight(u[1..], v[1..]);
    }
  }

  lemma {:induction false} DotScaleLeft(c: real, u: Vector, v: Vector)
    requires |u| == |v|
    ensures Dot(Scale(c, u), v) == c * Dot(u, v)
  {
    if |u| > 0 {
      ScaleTail(c, u);
      DotScaleLeft(c, u[1..], v[1..]);
    }
  }

  lemma {:induction false} DotSubLeft(u: Vector, w: Vector, v: Vector)
    requires |u| == |w| == |v|
    ensures Dot(Sub(u, w), v) == Dot(u, v) - Dot(w, v)
  {
    if |u| > 0 {
      assert Sub(u, w)[1..] == Sub(u[1..], w[1..]);
      DotSubLeft(u[1..], w[1..], v[1..]);
    }
  }

  /** `v` lies on the line through `a` with direction `d`. */
  ghost predicate OnLine(a: Vector, d: Vector, v: Vector)
    requires |a| == |d|
  {
    exists t :: v == Add(a, Scale(t, d))
  }

  /** The foot of the perpendicular from `v` to the line through `a` with
      direction `d`: `a + dot(v - a, d) * d`. It lies on the line, and for a
      unit direction the residual `v - p` is orthogonal to the line. */
  function ProjectOnLine(a: Vector, d: Vector, v: Vector): (p: Vector)
    requires |a| == |d| == |v|
    ensures |p| == |v|
    ensures OnLine(a, d, p)
    ensures Dot(d, d) == 1.0 ==> Dot(Sub(v, p), d) == 0.0
  {
    var t := Dot(Sub(v, a), d);
    ResidualIsPerpendicular(a, d, v, t);
    Add(a, Scale(t, d))
  }

  /** With a unit direction, every point `a + t*d` of the line projects onto
      itself. */
  lemma PointOnLineProjectsToItself(a: Vector, d: Vector, t: real)
    requires |a| == |d| && Dot(d, d) == 1.0
    ensures ProjectOnLine(a, d, Add(a, Scale(t, d))) == Add(a, Scale(t, d))
  {
    var v := Add(a, Scale(t, d));
    AddSubCancel(a, Scale(t, d));
    DotScaleLeft(t, d, d);
    assert Dot(Sub(v, a), d) == t;
  }

  /** `(a + w) - a == w`. */
  lemma AddSubCancel(a: Vector, w: Vector)
    requires |a| == |w|
    ensures Sub(Add(a, w), a) == w
  {
    var r := Sub(Add(a, w), a);
    assert forall i :: 0 <= i < |w| ==> r[i] == w[i];
  }

  /** With a unit direction, the residual `v - (a + t*d)` for
      `t = dot(v - a, d)` is perpendicular to the line. */
  lemma ResidualIsPerpendicular(a: Vector, d: Vector, v: Vector, t: real)
    requires |a| == |d| == |v| && t == Dot(Sub(v, a), d)
    ensures Dot(d, d) == 1.0 ==> Dot(Sub(v, Add(a, Scale(t, d))), d) == 0.0
  {
    if Dot(d, d) == 1.0 {
      assert Sub(v, Add(a, Scale(t, d))) == Sub(Sub(v, a), Scale(t, d));
      DotSubLeft(Sub(v, a), Scale(t, d), d);
      DotScaleLeft(t, d, d);
    }
  }

  /** With a unit direction, projecting a projection changes nothing. */
  lemma ProjectionIdempotent(a: Vector, d: Vector, v: Vector)
    requires |a| == |d| == |v| && Dot(d, d) == 1.0
    ensures ProjectOnLine(a, d, ProjectOnLine(a, d, v)) == ProjectOnLine(a, d, v)
  {
    PointOnLineProjectsToItself(a, d, Dot(Sub(v, a), d));
  }

  /** A norm vanishes only on the zero vector. */
  ghost predicate ZeroOnlyAtZero(norm: Vector -> real) {
    forall w: Vector :: norm(w) == 0.0 ==> IsZero(w)
  }

  /** `norm(v - proj(v))`: the perpendicular distance from `v` to the line.
      Under a norm that vanishes only on the zero vector, distance 0 means
      that `v` lies on the line. */
  function DistanceToLine(norm: Vector -> real, a: Vector, d: Vector, v: Vector): (r: real)
    requires |a| == |d| == |v|
    ensures ZeroOnlyAtZero(norm) && r == 0.0 ==> OnLine(a, d, v)
  {
    var p := ProjectOnLine(a, d, v);
    ZeroResidualOnLine(norm, a, d, v, p);
    norm(Sub(v, p))
  }

  /** A point whose residual to a point `p` of the line has norm 0, under a
      norm that vanishes only on the zero vector, is `p` itself. */
  lemma ZeroResidualOnLine(norm: Vector -> real, a: Vector, d: Vector, v: Vector, p: Vector)
    requires |a| == |d| == |v| == |p| && OnLine(a, d, p)
    ensures ZeroOnlyAtZero(norm) && norm(Sub(v, p)) == 0.0 ==> OnLine(a, d, v)
  {
    if ZeroOnlyAtZero(norm) && norm(Sub(v, p)) == 0.0 {
      assert IsZero(Sub(v, p));
      assert forall i :: 0 <= i < |v| ==> v[i] == Sub(v, p)[i] + p[i];
      assert v == p;
    }
  }

  /** A point of the line lies at distance zero from it. */
  lemma PointOnLineHasDistanceZero(norm: Vector -> real, a: Vector, d: Vector, t: real)
    requires |a| == |d| && Dot(d, d) == 1.0 && ZeroHasNormZero(norm)
    ensures DistanceToLine(norm, a, d, Add(a, Scale(t, d))) == 0.0
  {
    var v := Add(a, Scale(t, d));
    PointOnLineProjectsToItself(a, d, t);
    assert Sub(v, v) == Zero(|v|);
  }
}
